=== FILE: README.md ===
# Emergency119 — a Dafny model of the monitoring, account and video pages

Emergency119 is a fire and accident monitoring web application. The React
front end streams the analysis of a video from a detection server and shows
the result. It also manages user accounts and uploaded videos. A small
Python back end sends alert e-mails. This project models the decision logic
of those pages as pure Dafny functions and proves what they promise.

The modelled pages:

- **Live monitoring.**
  - The severity panel (`StateIndicator`): the display override, the state table, the threat bands, and the one-way latch behind the 119 button.
  - The per-second timeline (`Timeline`).
  - The analysis page's stream reducer (`VideoAnalysis`): the server-sent event handlers, and the select, restart, reset and logout handlers.
- **Accounts.**
  - Sign-up: the current copy (`Signup`) and the older `emergency-master` copy (`SignupMaster`).
  - Login (`Login`).
  - Password reset (`Resetpw`).
  - The validation rules and alert texts they share (`Validators`).
- **Videos.**
  - The management page (`VideoStorage`): storage paths, upload with rollback, delete order, the reconciliation of the storage bucket against the table, and signed URLs.
  - The analysis page's upload widget (`VideoManager`).
- **Alerts.** The e-mail notifier (`EmailNotifier`): recipient parsing, the configuration defaults and the send guard.
- **Chatbot.** The message log of the safety chatbot (`Chatbot`), its nearby-intent pattern, the secure-context test and the platform-specific map links.

Every remote call (Supabase auth, storage and tables, the analysis server,
SMTP, the generative model, geolocation) is a parameter holding its reply.
Sequences of storage and table calls are returned as lists of `Call`s, and
`ApplyAll` gives their effect on a bucket/table pair. React effects that
derive a value from the form (`passwordValid`, `passwordMatch`) are modelled
as already settled. `Text` holds the JavaScript and Python string operations
the code relies on: `trim`, `strip`, `split`, `join`, `startsWith`,
`includes` and decimal rendering.

## Model

| member | source | states |
|---|---|---|
| StateIndicator.DisplayState | frontend/src/components/StateIndicator.js:7-9 | the panel shows NORMAL exactly when fire is below 15 % and hazard below 45 %; otherwise it shows the reported state |
| StateIndicator.GetStateInfo | frontend/src/components/StateIndicator.js:11-68 | each known label has its own priority: NORMAL safe, PRE_FIRE warning, SMOKE_DETECTED caution, FIRE_GROWING danger, CALL_119 emergency; every other label gets the neutral "analysing" entry |
| StateIndicator.MaxScore | frontend/src/components/StateIndicator.js:71 | the result bounds all three scores and is one of them |
| StateIndicator.ThreatLevel | frontend/src/components/StateIndicator.js:73-79 | the level's rank exceeds i exactly when the maximum score reaches the i-th cutoff of 0.2/0.4/0.6/0.8 |
| StateIndicator.ThreatMonotone | frontend/src/components/StateIndicator.js:71-79 | a larger maximum score never gives a lower threat level |
| StateIndicator.ArmingShowsReportedState | frontend/src/components/StateIndicator.js:126-136 | when the latch condition holds, the display override is off |
| StateIndicator.Mount | frontend/src/components/StateIndicator.js:123-141 | the latch starts cleared, because the reset effect runs after the arming effect |
| StateIndicator.Render | frontend/src/components/StateIndicator.js:126-141 | a job change clears the latch; within a job it stays set; it is newly set only when the arming effect re-ran and its condition held |
| StateIndicator.Ack | frontend/src/components/StateIndicator.js:144-148 | acknowledging clears the latch and nothing else |
| StateIndicator.LatchWithinJob | frontend/src/components/StateIndicator.js:123-141 | across renders within one job, the latch is set iff it was set before or some render armed it; later low scores never clear it |
| StateIndicator.ViewOf | frontend/src/components/StateIndicator.js:150-208 | the 119 button is shown exactly while latched; quiet scores show the "safe" entry |
| StateIndicator.EmergencyCall | frontend/src/components/StateIndicator.js:85-120 | no request and no alert exactly when there is no job id; a success shows the server's message |
| Timeline.SecondBasedEvents | frontend/src/components/Timeline.js:83-127 | rows are strictly ascending by second; each row is the first highest-scoring valid event of its second; every valid event's second has a row |
| Timeline.CollectSummarises | frontend/src/components/Timeline.js:86-122 | the map built by the loop holds exactly one correct best row per second seen so far |
| Timeline.SortBySecond | frontend/src/components/Timeline.js:124 | the result is a permutation of the rows (the same multiset), strictly ordered when the seconds are distinct |
| Timeline.InvalidEventsDropped | frontend/src/components/Timeline.js:93-96 | no row comes from an event whose timestamp is missing, not a number, NaN or 0 |
| Timeline.Keep | frontend/src/components/Timeline.js:131 | filtering keeps exactly the events that satisfy the test |
| Timeline.KeepAppend | frontend/src/components/Timeline.js:131 | filtering a concatenation is the concatenation of the filtered parts, so order and repetitions are kept |
| Timeline.KeepSingle | frontend/src/components/Timeline.js:131 | one event is kept exactly when it satisfies the test |
| Timeline.FilterByState | frontend/src/components/Timeline.js:129-131 | 'ALL' keeps every event; any other filter keeps exactly the events in that state |
| Timeline.FilterByStateAppend | frontend/src/components/Timeline.js:129-131 | the state filter works event by event over concatenations, so the filtered list is the log's matching events in order, each as often as it occurs |
| Timeline.DisplayEvents | frontend/src/components/Timeline.js:134 | with "show all" every row is shown; otherwise the last min(n, 50) rows are shown |
| Timeline.MoreNoticeIffRowsHidden | frontend/src/components/Timeline.js:231-236 | the "latest N seconds" notice appears exactly when rows are hidden |
| Timeline.DangerCountComplementsNormal | frontend/src/components/Timeline.js:256 | the non-NORMAL count plus the NORMAL-filter count is the number of events |
| Timeline.GetStateColor | frontend/src/components/Timeline.js:43-52 | the timeline's colour for a state is the panel's colour for it |
| Timeline.GetStateText | frontend/src/components/Timeline.js:54-63 | the timeline's label for a state is the panel's label for it |
| Timeline.View | frontend/src/components/Timeline.js:31-252 | an empty log shows only the placeholder; otherwise, for a log whose events all carry scores, the rendered timeline is the reduced, filtered list; under a filter every row has the filtered state |
| VideoAnalysis.CloseCurrent | frontend/src/components/VideoAnalysis.js:255-258 | closing the referenced stream leaves no stream open when at most one was |
| VideoAnalysis.OpenStream | frontend/src/components/VideoAnalysis.js:68-81 | only the stream the ref holds is closed, so any other stream stays open; a fresh stream is opened and the ref points at it; with at most the referenced stream open beforehand, the fresh one is the only open stream |
| VideoAnalysis.OrDefault | frontend/src/components/VideoAnalysis.js:93 | a missing or zero size falls back to the default |
| VideoAnalysis.TickEvent | frontend/src/components/VideoAnalysis.js:97-102 | a tick appends an event numbered with the log's length |
| VideoAnalysis.Deliver | frontend/src/components/VideoAnalysis.js:83-123 | a message on a closed connection changes nothing; on the open one, tick, end and error act as the handler does; the one-stream invariant is kept |
| VideoAnalysis.TransportError | frontend/src/components/VideoAnalysis.js:125-146 | a CONNECTING error closes the stream and shows the banner; CLOSED and OPEN errors change nothing on screen |
| VideoAnalysis.StreamAppendsTicks | frontend/src/components/VideoAnalysis.js:83-111 | feeding a stream to the open connection appends exactly the ticks before the first end, in order, numbered consecutively |
| VideoAnalysis.ClosedStreamIgnored | frontend/src/components/VideoAnalysis.js:104-111 | once a connection is closed, nothing delivered on it changes the page |
| VideoAnalysis.SelectVideo | frontend/src/components/VideoAnalysis.js:150-166 | only a URL starting with http:// or https:// starts an analysis; any other shows the error |
| VideoAnalysis.StartReplied | frontend/src/components/VideoAnalysis.js:167-201 | success stores the job and opens a stream; failures show the error and stop processing |
| VideoAnalysis.Reanalyze | frontend/src/components/VideoAnalysis.js:204-217 | without a job nothing happens; otherwise the log is cleared and the stream closed |
| VideoAnalysis.ReanalyzeReplied | frontend/src/components/VideoAnalysis.js:219-253 | success opens a fresh stream; failures show the error |
| VideoAnalysis.Reset | frontend/src/components/VideoAnalysis.js:255-272 | everything is cleared and the old stream closed |
| VideoAnalysis.Logout | frontend/src/components/VideoAnalysis.js:47-66 | the job and the log are cleared and the stream closed |
| VideoAnalysis.DismissError | frontend/src/components/VideoAnalysis.js:313 | closing the banner clears only the error |
| Validators.CheckPassword | frontend/src/user/Signup.jsx:35-36 | accepts exactly 8 to 16 characters from letters, digits and @$!%*?&, with at least one of each kind |
| Validators.CheckUserId | frontend/src/user/Signup.jsx:93-94 | accepts exactly 4 to 12 ASCII letters and digits |
| Validators.EmailPatternIffShape | frontend/src/user/Signup.jsx:138-139 | the e-mail pattern holds exactly for text with no space, a single @ after a non-empty local part, and a dot inside the domain |
| Validators.UserIdNotBlank | frontend/src/user/Signup.jsx:87-94 | an id of the required form is never blank |
| Signup.Edit | frontend/src/user/Signup.jsx:64-83 | only the edited field changes; an id edit drops the check result; an e-mail edit drops "sent"; the page invariant is kept |
| Signup.CheckUserId | frontend/src/user/Signup.jsx:86-128 | the lookup is made exactly for a well-formed id; taken and free set exactly one flag; a failed lookup changes nothing; the page invariant is kept |
| Signup.VerificationGate | frontend/src/user/Signup.jsx:131-160 | each guard fails exactly when every earlier guard passed and its own did not |
| Signup.SignUpOnlyWhenChecked | frontend/src/user/Signup.jsx:131-165 | sign-up is requested only for a checked free id, a valid and confirmed password and a well-formed e-mail |
| Signup.RateLimitSecondTestRedundant | frontend/src/user/Signup.jsx:199-221 | the second rate-limit substring test adds nothing to the first |
| Signup.SubmitVerification | frontend/src/user/Signup.jsx:131-241 | "sent" is raised exactly for a new account or a successful resend; every alert is pinned to its case: new-account sent, resent, already registered, rate limit, and the echoed failure message; the invariant is kept |
| Signup.EmailSentOnlyAfterAllGuards | frontend/src/user/Signup.jsx:131-241 | "sent" is only raised after every guard passed and the service accepted |
| SignupMaster.VerificationGate | emergency-master/frontend/src/user/Signup.jsx:132-155 | the older page's guards: blank, format, weak, mismatch, with no id-checked guard |
| SignupMaster.FrontendGateAddsIdCheck | emergency-master/frontend/src/user/Signup.jsx:132-155 | the current gate lets a request through exactly when the older one does and the id was checked |
| SignupMaster.SignUpWithoutIdCheck | emergency-master/frontend/src/user/Signup.jsx:132-155 | the older page can request sign-up for an id that was never checked |
| SignupMaster.SubmitVerification | emergency-master/frontend/src/user/Signup.jsx:157-185 | any sign-up error is echoed; success raises "sent"; no resend is made |
| Resetpw.Edit | frontend/src/user/Resetpw.jsx:73-78 | only the edited field changes |
| Resetpw.ResetGate | frontend/src/user/Resetpw.jsx:81-92 | the password rule is tested first, then the confirmation |
| Resetpw.WeakBeforeMismatch | frontend/src/user/Resetpw.jsx:81-92 | an invalid password is reported even when the confirmation also differs |
| Resetpw.SubmitReset | frontend/src/user/Resetpw.jsx:81-112 | the update is called exactly when both guards pass; success goes to the login page; a failure shows the message |
| Resetpw.UpdateOnlyWithGoodPassword | frontend/src/user/Resetpw.jsx:24-112 | the new password sent satisfies the rule and equals its confirmation |
| Login.LoginGate | frontend/src/user/Login.jsx:33-50 | blank e-mail, blank password and bad format are reported in that order |
| Login.WhitespacePasswordRejected | frontend/src/user/Login.jsx:33-50 | a password of white space only never reaches sign-in |
| Login.FallbackUserId | frontend/src/user/Login.jsx:70 | without a stored id, the id is the text before the first @; the page computes this id and then discards it |
| Login.FallbackIsLocalPart | frontend/src/user/Login.jsx:46-70 | for a well-formed e-mail the fallback id is the whole non-empty local part |
| Login.SubmitLogin | frontend/src/user/Login.jsx:33-85 | navigation to /analysis, which carries no user id, happens exactly for a confirmed user; an unconfirmed user is signed out; a credentials error gets its own message |
| Login.NavigationNeedsWellFormedForm | frontend/src/user/Login.jsx:33-76 | reaching the analysis page takes a well-formed e-mail, a non-blank password and a confirmed user |
| Login.RequestReset | frontend/src/user/Login.jsx:102-130 | a cancelled or empty prompt does nothing; a malformed address is refused; otherwise the request is sent |
| Login.ResetAnswerNotRevealed | frontend/src/user/Login.jsx:115-127 | the outcome does not depend on the auth service's answer |
| VideoStorage.Extension | frontend/src/components/VideoUploadPage.jsx:184 | the extension is the dot-free tail after the last dot, or the whole name |
| VideoStorage.StoragePathInFolder | frontend/src/components/VideoUploadPage.jsx:183-187 | every stored path lies in the user's folder |
| VideoStorage.StoragePathKeepsExtension | frontend/src/components/VideoUploadPage.jsx:183-187 | the stored path's extension is the original file's extension |
| VideoStorage.PathStampRoundTrip | frontend/src/components/VideoUploadPage.jsx:186-187 | the upload time can be read back from the stored path |
| VideoStorage.DistinctTimesDistinctPaths | frontend/src/components/VideoUploadPage.jsx:186-187 | uploads at different times get different paths |
| VideoStorage.CheckUpload | frontend/src/components/VideoUploadPage.jsx:160-176 | no file, a non-video and a file over 500 MiB are refused in that order |
| VideoStorage.SizeBoundInclusive | frontend/src/components/VideoUploadPage.jsx:172-173 | a video of exactly 500 MiB is accepted |
| VideoStorage.UploadCalls | frontend/src/components/VideoUploadPage.jsx:191-231 | upload first, the insert only after it, and the removal only after a failed insert |
| VideoStorage.UploadKeepsFilesAndRowsPaired | frontend/src/components/VideoUploadPage.jsx:191-231 | the new row exists exactly when upload and insert succeeded; the file stays unless the rollback removal succeeded, whose result the handler ignores; so file and row are paired unless that removal fails |
| VideoStorage.UploadFile | frontend/src/components/VideoUploadPage.jsx:159-245 | the checks, the calls and the messages of the upload handler: the success text exactly on a complete upload, which alone reloads the list, and no success text otherwise |
| VideoStorage.DeleteVideo | frontend/src/components/VideoUploadPage.jsx:247-289 | nothing without confirmation; the file is removed first, and the row deleted only after that succeeded; the list is reloaded, and "영상이 삭제되었습니다." shown, exactly after a complete delete |
| VideoStorage.DeleteRemovesFileBeforeRow | frontend/src/components/VideoUploadPage.jsx:247-289 | a failed removal changes nothing; a row is deleted only after its file was removed |
| VideoStorage.ReconcilePartition | frontend/src/components/VideoUploadPage.jsx:75-102 | every path is an orphan, missing, or in both the folder and the table |
| VideoStorage.Reconcile | frontend/src/components/VideoUploadPage.jsx:74-130 | orphans are removed, the first row of each missing path is deleted, and a re-query follows only when rows were missing |
| VideoStorage.ReconcileDeletesOnlyUnlisted | frontend/src/components/VideoUploadPage.jsx:101-130 | only rows whose path is absent from the storage view are deleted |
| VideoStorage.SignedUrls | frontend/src/components/VideoUploadPage.jsx:134-150 | each row with a signed URL is keyed by its id, and no other row is |
| VideoStorage.LoadVideos | frontend/src/components/VideoUploadPage.jsx:34-157 | a table error shows the message; otherwise the cleanup runs, and the list is shown only when no re-query is needed |
| VideoStorage.ListFailureDeletesEveryRow | frontend/src/components/VideoUploadPage.jsx:44-122 | as written, a failed storage listing deletes a row for every stored path |
| VideoStorage.FirstPageDeletesOlderRows | frontend/src/components/VideoUploadPage.jsx:44-122 | as written, the row of a file beyond the first 100 listed is deleted |
| VideoStorage.CorrectedCleanupIsSound | frontend/src/components/VideoUploadPage.jsx:74-130 | when the whole folder is seen, only rows without a file are deleted; when listing fails, nothing is deleted |
| VideoManager.FailureText | frontend/src/components/VideoManager.jsx:79 | an empty error message falls back to the generic text |
| VideoManager.HandleUpload | frontend/src/components/VideoManager.jsx:8-83 | only the MIME type is checked; without a user nothing is uploaded; the calls stop at the first failure |
| VideoManager.Transfer | frontend/src/components/VideoManager.jsx:29-65 | upload then insert, with no rollback; success exactly when both succeed |
| VideoManager.NoSizeBound | frontend/src/components/VideoManager.jsx:12-16 | a video of any size reaches the upload |
| VideoManager.InsertFailureLeavesOrphan | frontend/src/components/VideoManager.jsx:34-65 | a failed insert leaves the uploaded file in the bucket with no row |
| EmailNotifier.CleanEntry | backend/email_notifier.py:24 | a cleaned entry has no quote at either end and only characters of the field |
| EmailNotifier.ParseRecipients | backend/email_notifier.py:21-26 | no setting gives no recipients; otherwise there is one cleaned entry per comma-separated field |
| EmailNotifier.CleanAddressUnchanged | backend/email_notifier.py:24 | cleaning leaves a clean address alone |
| EmailNotifier.RecipientsRoundTrip | backend/email_notifier.py:21-24 | parsing the comma-join of clean addresses gives the addresses back |
| EmailNotifier.CommasOnlyGiveEmptyEntries | backend/email_notifier.py:21-24 | a setting of only a comma gives two empty recipients |
| EmailNotifier.Configure | backend/email_notifier.py:14-26 | the host defaults to smtp.gmail.com and the port to 587 |
| EmailNotifier.Subject | backend/email_notifier.py:38 | the subject starts with the alarm marker and contains the job id |
| EmailNotifier.SendEmergencyAlert | backend/email_notifier.py:28-80 | the server is contacted exactly when user, password and recipients are present; the result is true exactly when delivery succeeded |
| EmailNotifier.NoRecipientsNoMail | backend/email_notifier.py:21-32 | without recipients no server is contacted |
| Chatbot.BarMatchesAsWritten | frontend/src/components/ChatbotWidget.jsx:52-53 | the pattern as written takes "가야\|병원" for a nearby request; the intended pattern does not |
| Chatbot.IntendedGayaSyllable | frontend/src/components/ChatbotWidget.jsx:53 | with the intended alternation, the match reads 가야해 or 가야할 |
| Chatbot.IntendedMatchesFewer | frontend/src/components/ChatbotWidget.jsx:52-53 | every query the intended pattern matches is matched as written |
| Chatbot.Appended | frontend/src/components/ChatbotWidget.jsx:157-194 | the user's message comes first, the guidance only on a nearby intent, and then exactly one AI message: the initialisation error, the answer or the error text |
| Chatbot.SendNow | frontend/src/components/ChatbotWidget.jsx:154-195 | a blank query changes nothing; otherwise the input is cleared and the messages appended; the model is asked exactly when ready |
| Chatbot.ListedIpv6NeverMatches | frontend/src/components/ChatbotWidget.jsx:59-62 | the list's "::1" entry equals no `location.hostname`, because the IPv6 loopback serialises as "[::1]" |
| Chatbot.Ipv6LoopbackRefusedOverHttp | frontend/src/components/ChatbotWidget.jsx:59-62 | as written, a plain-HTTP page on the IPv6 loopback is refused |
| Chatbot.IntendedHttpExactlyLoopback | frontend/src/components/ChatbotWidget.jsx:59-62 | with the serialised list, a plain-HTTP page passes exactly on localhost, 127.0.0.1 and the IPv6 loopback |
| Chatbot.DeviceOf | frontend/src/components/ChatbotWidget.jsx:55-57 | Android and iOS are read case-insensitively from the user agent, independently |
| Chatbot.DeviceIgnoresCase | frontend/src/components/ChatbotWidget.jsx:55-57 | user agents that differ only in ASCII letter case give the same platform |
| Chatbot.NearbyLinks | frontend/src/components/ChatbotWidget.jsx:64-78 | app links exist exactly on mobile; Google's is an Android intent, else an iOS comgooglemaps link |
| Chatbot.ButtonsFollowPlatform | frontend/src/components/ChatbotWidget.jsx:290-312 | on a desktop both buttons open the web map; on a phone both try the app, with the web page as fallback |
| Chatbot.UseHere | frontend/src/components/ChatbotWidget.jsx:197-230 | missing geolocation, an insecure page and a failed lookup each append one message; a position sets the links and leaves the log alone |
| Chatbot.SessionAppendOnly | frontend/src/components/ChatbotWidget.jsx:154-195 | over any session the log only grows, in place, and every user message in it is non-empty and trimmed |
| Chatbot.TrimmedIffFixed | frontend/src/components/ChatbotWidget.jsx:155 | a user message has no white space at either end exactly when trimming leaves it alone |
| Text.Strip | backend/email_notifier.py:24 | the stripped text has no stripped character at either end, and is empty exactly when every character is stripped |
| Text.StripIsSlice | frontend/src/user/Signup.jsx:87 | trimming removes only a prefix and a suffix of stripped characters |
| Text.JoinSplit | backend/email_notifier.py:24 | joining the fields of a split with the separator restores the text |
| Text.SplitOfJoin | backend/email_notifier.py:24 | splitting a join of separator-free parts gives the parts back |
| Text.FirstField | frontend/src/user/Login.jsx:70 | the first field has no separator and is a prefix, ending just before the first separator |
| Text.LastFieldAfterSeparator | frontend/src/components/VideoUploadPage.jsx:184 | the last field after a separator is the separator-free tail |
| Text.DecimalRoundTrip | frontend/src/components/VideoUploadPage.jsx:186 | the decimal rendering of a number reads back as that number |

## Left out

- Remote services are abstract replies and are not modelled. This covers Supabase auth, storage and tables, the analysis server's HTTP API and its event stream, SMTP, the generative model and geolocation.
- Timing is not modelled: `setTimeout`, the re-query delay, the video restart and the deep-link fallback timer.
- Loading flags (`loading`, `uploading`, `busy`) and button disabling are left out; they only gate the interface.
- The sign-up page's auth-state listener that finishes registration (frontend/src/user/Signup.jsx:265-320) is left out. Its insert goes to a remote table.
- The reset page's session check on mount (frontend/src/user/Resetpw.jsx:56-71) is left out. It depends only on the auth service.
- The login page's redirect of a signed-in user (frontend/src/user/Login.jsx:87-96) is left out. It depends only on the auth service.
- `int()` parsing of SMTP_PORT is left out. The port is taken as an already-parsed optional integer.
- The alert e-mail's HTML body, the date and the percentage formatting are left out.
- Score percentages with `toFixed`, `formatFileSize`, `formatTime`, and playback and pause control are display or remote concerns and are left out.
- `Chatbot.NearbyLinks` takes the coordinates as already-rendered text and the query as already URI-encoded. Number formatting and `encodeURIComponent` are not modelled.
- `openDeepLinkInNewTab` is left out. It is window handling: a pop-up, then the web page after a delay.
- Concurrency between `sendNow` calls is not modelled: they are applied one at a time, each appending to the log it finds.
- VideoAnalysis.TransportError: an `onerror` with `readyState` CLOSED (frontend/src/components/VideoAnalysis.js:129-133) is ignored, so `isProcessing` stays true and no error is shown. The model keeps this behaviour and does not promise that a broken stream is reported.
- Timeline.SecondBasedEvents: the scores are exact reals, and the combined score is their exact sum. frontend/src/components/Timeline.js:100-106 adds JavaScript doubles and replaces a row only for a strictly larger sum, so a sum that rounds differently can pick a different row. Example: in one second, event A with hazard 0.3 and then event B with fire 0.2 and hazard 0.1. In doubles B sums to 0.30000000000000004 and wins; with exact reals the sums tie and the model keeps A.
- Timeline.CollectSummarises: the best row of each second is defined by the exact real sum of the scores, not the double-precision sum of frontend/src/components/Timeline.js:100-106. The difference is the one described for Timeline.SecondBasedEvents.
- Timeline.View: requires every event to carry a scores object. The summary reads `e.scores.fire` and `e.scores.smoke` unguarded (frontend/src/components/Timeline.js:248-252), so a log with a score-less event makes the page throw instead of rendering. The two maxima themselves are display values and are not modelled.
- StateIndicator.Props: holds a scores object. A tick without scores (`CurrentData` with `scores` None) reaches the panel as `undefined`, and `scores.fire` (frontend/src/components/StateIndicator.js:7) throws. That failure is not modelled.
- StateIndicator.EmergencyCall: states the no-request case and the success text. The two failure texts are only in the body.
- Chatbot.UseHere: tests the secure context with the loopback list in serialised form, which includes "[::1]". The list as written names "::1", which matches no hostname (see Findings).
- Chatbot.SendNow: decides the guidance message with the intended nearby pattern. The pattern as written also accepts a bar after 가야 (see Findings).
- VideoStorage.LoadVideos: the view of the storage folder is a parameter. The as-written and corrected listings are given by `ViewAsWritten` and `ViewCorrected`.

## Findings

| source | as written | input that shows it | evidently intended | confidence | as-written member | corrected member |
|---|---|---|---|---|---|---|
| frontend/src/components/VideoUploadPage.jsx:44-122 | a failed storage listing is logged and then treated as an empty folder | any listing error for a user with at least one table row | a failed listing skips the reconciliation | not executed | VideoStorage.ListFailureDeletesEveryRow | VideoStorage.CorrectedCleanupIsSound |
| frontend/src/components/VideoUploadPage.jsx:46-122 | only the 100 newest files are listed, but every row whose path is not among them is deleted | a user with 101 uploads: the oldest row is deleted though its file exists | rows are compared with the whole folder | not executed | VideoStorage.FirstPageDeletesOlderRows | VideoStorage.CorrectedCleanupIsSound |
| frontend/src/components/ChatbotWidget.jsx:52-53 | `[해\|할]` is a character class that also matches a bar | the query "가야\|병원" gets the nearby guidance | the alternation `(해\|할)` | not executed | Chatbot.BarMatchesAsWritten | Chatbot.IntendedGayaSyllable |
| frontend/src/components/ChatbotWidget.jsx:59-62 | the loopback list names the IPv6 loopback as "::1", but `location.hostname` serialises it as "[::1]" | a page served over plain HTTP at http://[::1]:3000 is refused geolocation | the list holds "[::1]" | not executed | Chatbot.Ipv6LoopbackRefusedOverHttp | Chatbot.IntendedHttpExactlyLoopback |

=== FILE: chatbot.dfy ===
/** The safety chatbot widget: the message log kept by `sendNow` and the
    "find near me" button, with the generative model and the browser's
    geolocation as abstract replies. The log only ever grows: every update
    appends to the list it was given. */
module Chatbot {
  import opened Wrappers
  import opened Text

  // ---------------------------------------------------------------------------
  // Messages and the log
  // ---------------------------------------------------------------------------

  datatype Role = You | Ai

  datatype Message = Message(role: Role, text: string)

  /** The widget's state that `sendNow` and the location button touch: the
      message log and the text area's content. */
  datatype Chat = Chat(msgs: seq<Message>, input: string)

  const Greeting: Message := Message(Ai,
    "안녕하세요! 저는 119 안전도우미예요.\n"
    + "화재·낙상·생활 안전사고 예방/대응 방법을 간단히 안내해 드립니다.\n"
    + "근처 응급실/병원을 찾으려면 아래 '내 위치로 찾기' 버튼을 눌러 주세요.\n"
    + "응급 상황이면 즉시 119에 신고하세요. 무엇을 도와드릴까요?")

  const InitialChat := Chat([Greeting], "")

  const GuidanceText := "가까운 기관을 찾도록 도와드릴게요. 아래 '내 위치로 찾기' 버튼을 사용해 주세요.\n"
                        + "응급 상황이면 119가 최우선입니다."
  const InitErrorText := "API 초기화 오류입니다. .env 설정을 확인해 주세요."
  const ModelErrorText := "오류가 발생했어요. 네트워크와 API 키를 확인해 주세요."
  const NoGeolocationText := "이 브라우저는 위치 정보를 지원하지 않아요."
  const InsecureText := "위치 접근은 HTTPS(또는 localhost)에서만 동작합니다. HTTPS로 열어 주세요."
  const PositionFailedText := "위치 권한이 거부되었거나 확인에 실패했어요."

  // ---------------------------------------------------------------------------
  // The "nearby" intent: /(가까운|근처|주변).*(응급실|병원|소방서)|길찾기|가야[해|할]\s*병원|어디.*병원/
  // ---------------------------------------------------------------------------

  /** The characters a regular expression's `.` does not match. */
  predicate IsLineTerminator(c: char) {
    c == '\n' || c == '\r' || c == '\U{2028}' || c == '\U{2029}'
  }

  predicate OnOneLine(s: string) {
    forall k :: 0 <= k < |s| ==> !IsLineTerminator(s[k])
  }

  /** `a` at `i`, then `b` at `j`, with only `.`-matchable characters between:
      a match of `a.*b`. */
  predicate ThenOnLine(q: string, a: string, b: string, i: int, j: int) {
    OccursAt(q, a, i) && OccursAt(q, b, j) && i + |a| <= j && OnOneLine(q[i + |a|..j])
  }

  /** `q` contains a match of `a.*b`. */
  predicate FollowedOnLine(q: string, a: string, b: string) {
    exists i, j | 0 <= i <= |q| && 0 <= j <= |q| :: ThenOnLine(q, a, b, i, j)
  }

  /** A match of `가야[cls]\s*병원` with "가야" at `i` and "병원" at `j`. */
  predicate GayaAt(q: string, cls: set<char>, i: int, j: int) {
    OccursAt(q, "가야", i) && OccursAt(q, "병원", j) && i + 3 <= j
    && q[i + 2] in cls && All(q[i + 3..j], JsSpace)
  }

  const PlaceWords: set<string> := {"가까운", "근처", "주변"}
  const FacilityWords: set<string> := {"응급실", "병원", "소방서"}

  /** The pattern's four alternatives, the third with the character class
      after "가야" as a parameter. */
  predicate MatchesWith(q: string, cls: set<char>) {
    || (exists a, b | a in PlaceWords && b in FacilityWords :: FollowedOnLine(q, a, b))
    || Contains(q, "길찾기")
    || (exists i, j | 0 <= i <= |q| && 0 <= j <= |q| :: GayaAt(q, cls, i, j))
    || FollowedOnLine(q, "어디", "병원")
  }

  /** `[해|할]` is a character class of three characters, the bar included. */
  const ClassAsWritten: set<char> := {'해', '|', '할'}

  /** The alternation `(해|할)` the class stands in for. */
  const ClassIntended: set<char> := {'해', '할'}

  predicate NearbyIntentAsWritten(q: string) {
    MatchesWith(q, ClassAsWritten)
  }

  predicate NearbyIntent(q: string) {
    MatchesWith(q, ClassIntended)
  }

  /** A query that spells out the bar is taken for a nearby request by the
      pattern as written, though no alternative of the intended pattern
      matches it. */
  lemma BarMatchesAsWritten()
    ensures NearbyIntentAsWritten("가야|병원")
    ensures !NearbyIntent("가야|병원")
  {
    var q := "가야|병원";
    assert GayaAt(q, ClassAsWritten, 0, 3);
    forall a, b, i, j | a in PlaceWords && b in FacilityWords
      ensures !ThenOnLine(q, a, b, i, j)
    {
      NoOccurrence(q, a, if a == "가까운" then 1 else 0);
    }
    NoOccurrence(q, "길찾기", 0);
    NoOccurrence(q, "어디", 0);
    forall i, j ensures !GayaAt(q, ClassIntended, i, j) {
      GayaOnlyAtStart(q, i);
    }
  }

  /** `a` does not occur in `q` when one of its characters is absent from `q`. */
  lemma NoOccurrence(q: string, a: string, k: nat)
    requires k < |a| && a[k] !in q
    ensures forall i :: !OccursAt(q, a, i)
  {
    forall i
      ensures !OccursAt(q, a, i)
    {
      if 0 <= i <= |q| - |a| {
        assert q[i..i + |a|][k] == q[i + k];
        assert q[i + k] in q;
      }
    }
  }

  lemma GayaOnlyAtStart(q: string, i: int)
    requires q == "가야|병원"
    ensures OccursAt(q, "가야", i) ==> i == 0
  {
    forall k | 1 <= k < |q|
      ensures q[k] != '가'
    {
    }
    if 0 <= i <= |q| - 2 {
      assert q[i..i + 2][0] == q[i];
    }
  }

  /** With the intended class, the character after "가야" is one of the two
      syllables, so the match reads "가야해" or "가야할". */
  lemma IntendedGayaSyllable(q: string, i: int, j: int)
    requires GayaAt(q, ClassIntended, i, j)
    ensures q[i..i + 3] == "가야해" || q[i..i + 3] == "가야할"
  {
    assert q[i..i + 2] == "가야";
    assert q[i..i + 3] == q[i..i + 2] + [q[i + 2]];
  }

  /** Fixing the class only removes matches. */
  lemma IntendedMatchesFewer(q: string)
    requires NearbyIntent(q)
    ensures NearbyIntentAsWritten(q)
  {
    if exists i, j | 0 <= i <= |q| && 0 <= j <= |q| :: GayaAt(q, ClassIntended, i, j) {
      var i, j :| 0 <= i <= |q| && 0 <= j <= |q| && GayaAt(q, ClassIntended, i, j);
      assert GayaAt(q, ClassAsWritten, i, j);
    }
  }

  // ---------------------------------------------------------------------------
  // sendNow
  // ---------------------------------------------------------------------------

  /** The chat session's answer to `sendMessage`: its text, or a thrown error. */
  datatype ModelReply = Answered(text: string) | Threw

  datatype Sent = Sent(chat: Chat, modelCalled: bool)

  /** The query `sendNow` works on: its argument (a one-tap prompt) or, when
      called without one, the text area; trimmed. */
  function Query(c: Chat, text: Option<string>): string {
    Trim(text.GetOr(c.input))
  }

  /** The messages `sendNow` appends for a non-blank query `q`: the user's
      message, the guidance when `intent` holds, then one AI message — the
      initialisation error when the session is not `ready`, otherwise the
      answer or, when the call throws, the error text. */
  function Appended(q: string, intent: bool, ready: bool, reply: ModelReply): (m: seq<Message>)
    ensures |m| == if intent then 3 else 2
    ensures m[0] == Message(You, q)
    ensures intent ==> m[1] == Message(Ai, GuidanceText)
    ensures !ready ==> m[|m| - 1] == Message(Ai, InitErrorText)
    ensures ready ==> m[|m| - 1] == Message(Ai, if reply.Answered? then reply.text else ModelErrorText)
    ensures forall k :: 0 < k < |m| ==> m[k].role == Ai
  {
    var guided := if intent then [Message(You, q), Message(Ai, GuidanceText)] else [Message(You, q)];
    if !ready then guided + [Message(Ai, InitErrorText)]
    else
      var answer := match reply
        case Answered(t) => t
        case Threw => ModelErrorText;
      guided + [Message(Ai, answer)]
  }

  /** `sendNow(text)`: `ready` says whether the client and the chat session
      were initialised, `reply` is what the session answers. A blank query
      changes nothing; otherwise the text area is cleared and the messages
      are appended to the log, the model being asked only when ready. */
  function SendNow(c: Chat, text: Option<string>, ready: bool, reply: ModelReply): (r: Sent)
    ensures var q := Query(c, text);
            && (q == "" ==> r == Sent(c, false))
            && (q != "" ==> r == Sent(Chat(c.msgs + Appended(q, NearbyIntent(q), ready, reply), ""), ready))
    ensures r.modelCalled <==> Query(c, text) != "" && ready
  {
    var q := Query(c, text);
    if q == "" then Sent(c, false)
    else
      Sent(Chat(c.msgs + Appended(q, NearbyIntent(q), ready, reply), ""), ready)
  }

  // ---------------------------------------------------------------------------
  // The location button and the map links
  // ---------------------------------------------------------------------------

  /** The page's `location`: `hostname`, `host` (with the port) and `protocol`. */
  datatype Location = Location(hostname: string, host: string, protocol: string)

  /** The loopback list as written. */
  const LocalHosts: seq<string> := ["localhost", "127.0.0.1", "::1"]

  /** Geolocation is only attempted on a listed host or over HTTPS (as written). */
  predicate SecureContextOk(loc: Location) {
    loc.hostname in LocalHosts || loc.protocol == "https:"
  }

  /** A URL's host as the URL parser classifies it; an IPv6 address is held
      in its compressed text form, such as "::1". */
  datatype Host = Domain(name: string) | Ipv4(address: string) | Ipv6(address: string)

  predicate IsDigitOrDot(c: char) {
    IsAsciiDigit(c) || c == '.'
  }

  /** A host the parser can produce: a domain never holds a colon or a
      bracket, and one made of digits and dots only is parsed as an IPv4
      address instead; an IPv4 address is digits and dots; an IPv6 address
      holds no brackets. */
  predicate WellFormedHost(h: Host) {
    match h
    case Domain(n) => ':' !in n && '[' !in n && exists k :: 0 <= k < |n| && !IsDigitOrDot(n[k])
    case Ipv4(a) => forall k :: 0 <= k < |a| ==> IsDigitOrDot(a[k])
    case Ipv6(a) => '[' !in a
  }

  /** `location.hostname`: the serialised host, where an IPv6 address is
      written in square brackets (host serialisation, WHATWG URL Standard). */
  function Hostname(h: Host): (r: string)
    ensures h.Ipv6? ==> r == "[" + h.address + "]"
    ensures !h.Ipv6? ==> r == (if h.Domain? then h.name else h.address)
  {
    match h
    case Domain(n) => n
    case Ipv4(a) => a
    case Ipv6(a) => "[" + a + "]"
  }

  /** The three loopback hosts the list names. */
  predicate Loopback(h: Host) {
    h == Domain("localhost") || h == Ipv4("127.0.0.1") || h == Ipv6("::1")
  }

  /** As written, the list's "::1" entry matches no hostname at all: the IPv6
      loopback's hostname is "[::1]", and no other host serialises to a text
      that starts with a colon. */
  lemma ListedIpv6NeverMatches(h: Host)
    requires WellFormedHost(h)
    ensures Hostname(h) != "::1"
  {
    var r := Hostname(h);
    assert |r| > 0 ==> (h.Ipv6? ==> r[0] == '[') && (h.Ipv4? ==> IsDigitOrDot(r[0]));
  }

  /** So a plain-HTTP page on the IPv6 loopback is refused, although the
      list means to accept it. */
  lemma Ipv6LoopbackRefusedOverHttp(host: string)
    ensures Loopback(Ipv6("::1"))
    ensures !SecureContextOk(Location(Hostname(Ipv6("::1")), host, "http:"))
  {
    var r := Hostname(Ipv6("::1"));
    assert |r| == 5;
    assert r != "localhost" && r != "127.0.0.1" && r != "::1";
  }

  /** The loopback list with the IPv6 loopback in its serialised form. */
  const LocalHostnames: seq<string> := ["localhost", "127.0.0.1", "[::1]"]

  /** The secure-context test the list is meant to express. */
  predicate SecureContextIntended(loc: Location) {
    loc.hostname in LocalHostnames || loc.protocol == "https:"
  }

  /** With the serialised list, a plain-HTTP page passes exactly on the three
      loopback hosts. */
  lemma {:induction false} IntendedHttpExactlyLoopback(h: Host, host: string)
    requires WellFormedHost(h)
    ensures SecureContextIntended(Location(Hostname(h), host, "http:")) <==> Loopback(h)
  {
    var r := Hostname(h);
    match h
    case Domain(n) =>
      var k :| 0 <= k < |n| && !IsDigitOrDot(n[k]);
      assert |n| != 9 || n[k] != "127.0.0.1"[k];
      assert |n| != 5 || n[0] != "[::1]"[0];
    case Ipv4(a) =>
      assert |a| == 0 || IsDigitOrDot(a[0]);
      assert |a| != 9 || a[0] != "localhost"[0];
      assert |a| != 5 || a[0] != "[::1]"[0];
    case Ipv6(a) =>
      assert r[0] == '[';
      assert |r| != 9 || r[0] != "localhost"[0];
      assert |r| != 9 || r[0] != "127.0.0.1"[0];
      assert r == "[::1]" <==> a == "::1" by {
        if r == "[::1]" {
          assert a == r[1..|r| - 1];
        }
      }
  }

  /** ASCII upper case to lower case; other characters are left alone, as a
      case-insensitive regular expression without the `u` flag treats them
      when the pattern is ASCII. */
  function LowerAscii(c: char): (r: char)
    ensures 'A' <= c <= 'Z' ==> 'a' <= r <= 'z' && r as int - 'a' as int == c as int - 'A' as int
    ensures !('A' <= c <= 'Z') ==> r == c
  {
    if 'A' <= c <= 'Z' then (c as int - 'A' as int + 'a' as int) as char else c
  }

  function Lower(s: string): (r: string)
    ensures |r| == |s|
    ensures forall k :: 0 <= k < |s| ==> r[k] == LowerAscii(s[k])
  {
    seq(|s|, k requires 0 <= k < |s| => LowerAscii(s[k]))
  }

  /** The platform as read from `navigator.userAgent` (empty when absent):
      `/Android/i` and `/iPhone|iPad|iPod/i`. The two tests are independent. */
  datatype Device = Device(android: bool, ios: bool) {
    predicate Mobile() { android || ios }
  }

  function DeviceOf(userAgent: string): (d: Device)
    ensures d.android <==> Contains(Lower(userAgent), "android")
    ensures d.ios <==> Contains(Lower(userAgent), "iphone") || Contains(Lower(userAgent), "ipad")
                       || Contains(Lower(userAgent), "ipod")
  {
    var ua := Lower(userAgent);
    Device(Contains(ua, "android"),
           Contains(ua, "iphone") || Contains(ua, "ipad") || Contains(ua, "ipod"))
  }

  /** Two texts that agree up to ASCII letter case. */
  predicate SameUpToCase(a: string, b: string) {
    |a| == |b| && forall k :: 0 <= k < |a| ==> LowerAscii(a[k]) == LowerAscii(b[k])
  }

  /** The platform tests ignore letter case: user agents that differ only in
      the case of ASCII letters give the same device. */
  lemma DeviceIgnoresCase(a: string, b: string)
    requires SameUpToCase(a, b)
    ensures DeviceOf(a) == DeviceOf(b)
  {
    assert Lower(a) == Lower(b);
  }

  /** The coordinates as they are rendered into the links. */
  datatype Coords = Coords(lat: string, lon: string)

  datatype Links = Links(naverWeb: string, googleWeb: string,
                         naverApp: Option<string>, googleApp: Option<string>, what: string)

  const NaverSearch := "https://map.naver.com/v5/search/"
  const GoogleSearch := "https://www.google.com/maps/search/"

  /** `setNearbyLinks`: `query` is the URI-encoded facility name `what`. The
      Naver app link exists on any mobile platform; the Google app link is an
      Android intent, else on iOS a `comgooglemaps:` link; desktops get none. */
  function NearbyLinks(at: Coords, what: string, query: string, device: Device, host: string): (r: Links)
    ensures r.what == what
    ensures StartsWith(r.naverWeb, NaverSearch) && StartsWith(r.googleWeb, GoogleSearch)
    ensures r.naverApp.Some? <==> device.Mobile()
    ensures r.googleApp.Some? <==> device.Mobile()
    ensures r.naverApp.Some? ==> StartsWith(r.naverApp.value, "nmap://")
    ensures device.android ==> StartsWith(r.googleApp.value, "intent://")
    ensures !device.android && device.ios ==> StartsWith(r.googleApp.value, "comgooglemaps://")
  {
    var naverWeb := Prefixed(NaverSearch, query + "?c=" + at.lon + "," + at.lat + ",15,0,0");
    var googleWeb := Prefixed(GoogleSearch, query + "/@" + at.lat + "," + at.lon + ",15z");
    var naverApp :=
      if device.Mobile() then Some(Prefixed("nmap://", "search?query=" + query + "&appname=" + host))
      else None;
    var googleApp :=
      if device.android then
        Some(Prefixed("intent://", "maps.google.com/maps?q=" + query + "&center=" + at.lat + "," + at.lon
                                   + "#Intent;scheme=https;package=com.google.android.apps.maps;end"))
      else if device.ios then
        Some(Prefixed("comgooglemaps://", "?q=" + query + "&center=" + at.lat + "," + at.lon + "&zoom=15"))
      else None;
    Links(naverWeb, googleWeb, naverApp, googleApp, what)
  }

  /** A template string's fixed head followed by the rest. */
  function Prefixed(head: string, rest: string): (r: string)
    ensures StartsWith(r, head) && r[|head|..] == rest
  {
    var r := head + rest;
    assert r[..|head|] == head;
    r
  }

  /** What a map button opens: the app link through a new tab when on a mobile
      platform and the link exists, the web link otherwise. */
  datatype Opening = DeepLink(app: string, web: string) | Web(url: string)

  function MapButton(device: Device, app: Option<string>, web: string): Opening {
    if device.Mobile() && app.Some? then DeepLink(app.value, web) else Web(web)
  }

  /** On a desktop both buttons open the HTTPS map pages; on a phone both try
      the app first and keep the web page as the fallback. */
  lemma ButtonsFollowPlatform(at: Coords, what: string, query: string, device: Device, host: string)
    ensures var l := NearbyLinks(at, what, query, device, host);
            var naver, google := MapButton(device, l.naverApp, l.naverWeb), MapButton(device, l.googleApp, l.googleWeb);
            && (!device.Mobile() ==> naver == Web(l.naverWeb) && google == Web(l.googleWeb)
                                     && StartsWith(naver.url, NaverSearch) && StartsWith(google.url, GoogleSearch))
            && (device.Mobile() ==> naver.DeepLink? && google.DeepLink?
                                    && naver.web == l.naverWeb && google.web == l.googleWeb)
  {
  }

  datatype Located = Located(chat: Chat, nearby: Option<Links>)

  /** "Find near me": `geolocation` says whether the browser has the API,
      `position` is the coordinates it reports (`None` when permission is
      refused or the lookup fails). Each refusal appends one message; a
      position replaces the links and leaves the log alone. */
  function UseHere(c: Chat, nearby: Option<Links>, geolocation: bool, loc: Location,
                   position: Option<Coords>, what: string, query: string, device: Device): (r: Located)
    ensures r.chat.input == c.input
    ensures |c.msgs| <= |r.chat.msgs| <= |c.msgs| + 1 && r.chat.msgs[..|c.msgs|] == c.msgs
    ensures forall k :: |c.msgs| <= k < |r.chat.msgs| ==> r.chat.msgs[k].role == Ai
    ensures !geolocation ==> r == Located(Chat(c.msgs + [Message(Ai, NoGeolocationText)], c.input), nearby)
    ensures geolocation && !SecureContextIntended(loc) ==>
              r == Located(Chat(c.msgs + [Message(Ai, InsecureText)], c.input), nearby)
    ensures r.nearby != nearby ==> geolocation && SecureContextIntended(loc) && position.Some?
    ensures geolocation && SecureContextIntended(loc) && position.Some? ==>
              r == Located(c, Some(NearbyLinks(position.value, what, query, device, loc.host)))
    ensures geolocation && SecureContextIntended(loc) && position == None ==>
              r == Located(Chat(c.msgs + [Message(Ai, PositionFailedText)], c.input), nearby)
  {
    if !geolocation then Located(Chat(c.msgs + [Message(Ai, NoGeolocationText)], c.input), nearby)
    else if !SecureContextIntended(loc) then Located(Chat(c.msgs + [Message(Ai, InsecureText)], c.input), nearby)
    else match position
      case None => Located(Chat(c.msgs + [Message(Ai, PositionFailedText)], c.input), nearby)
      case Some(at) => Located(c, Some(NearbyLinks(at, what, query, device, loc.host)))
  }

  // ---------------------------------------------------------------------------
  // A session of events
  // ---------------------------------------------------------------------------

  datatype Event =
    | Type(value: string)
    | Send(text: Option<string>, ready: bool, reply: ModelReply)
    | Locate(geolocation: bool, loc: Location, position: Option<Coords>, what: string, query: string, device: Device)

  datatype Widget = Widget(chat: Chat, nearby: Option<Links>)

  function Step(w: Widget, e: Event): Widget {
    match e
    case Type(v) => w.(chat := w.chat.(input := v))
    case Send(text, ready, reply) => w.(chat := SendNow(w.chat, text, ready, reply).chat)
    case Locate(geo, loc, pos, what, query, device) =>
      var r := UseHere(w.chat, w.nearby, geo, loc, pos, what, query, device);
      Widget(r.chat, r.nearby)
  }

  function Run(w: Widget, events: seq<Event>): Widget
    decreases |events|
  {
    if events == [] then w else Step(Run(w, events[..|events| - 1]), events[|events| - 1])
  }

  /** A non-empty text with no white space at either end. */
  predicate Trimmed(t: string) {
    t != "" && !IsJsSpace(t[0]) && !IsJsSpace(t[|t| - 1])
  }

  /** Every message the user sent is non-empty and already trimmed. */
  predicate UserTextsTrimmed(msgs: seq<Message>) {
    forall k :: 0 <= k < |msgs| && msgs[k].role == You ==> Trimmed(msgs[k].text)
  }

  /** Over any session the log only grows: whatever was shown stays shown, in
      place; and every user message in it is a non-empty trimmed query. */
  lemma {:induction false} SessionAppendOnly(w: Widget, events: seq<Event>)
    requires UserTextsTrimmed(w.chat.msgs)
    ensures var after := Run(w, events).chat.msgs;
            |w.chat.msgs| <= |after| && after[..|w.chat.msgs|] == w.chat.msgs
            && UserTextsTrimmed(after)
    decreases |events|
  {
    if events != [] {
      var before := Run(w, events[..|events| - 1]);
      SessionAppendOnly(w, events[..|events| - 1]);
      StepAppends(before, events[|events| - 1]);
      var after := Run(w, events).chat.msgs;
      assert after[..|before.chat.msgs|] == before.chat.msgs;
      assert after[..|w.chat.msgs|] == after[..|before.chat.msgs|][..|w.chat.msgs|];
    }
  }

  lemma StepAppends(w: Widget, e: Event)
    requires UserTextsTrimmed(w.chat.msgs)
    ensures var after := Step(w, e).chat.msgs;
            |w.chat.msgs| <= |after| && after[..|w.chat.msgs|] == w.chat.msgs
            && UserTextsTrimmed(after)
  {
    match e
    case Type(_) =>
    case Locate(geo, loc, pos, what, query, device) =>
      LocateAppends(w.chat, w.nearby, geo, loc, pos, what, query, device);
    case Send(text, ready, reply) =>
      SendAppends(w.chat, text, ready, reply);
  }

  lemma LocateAppends(c: Chat, nearby: Option<Links>, geo: bool, loc: Location,
                      pos: Option<Coords>, what: string, query: string, device: Device)
    requires UserTextsTrimmed(c.msgs)
    ensures var after := UseHere(c, nearby, geo, loc, pos, what, query, device).chat.msgs;
            |c.msgs| <= |after| && after[..|c.msgs|] == c.msgs && UserTextsTrimmed(after)
  {
    var after := UseHere(c, nearby, geo, loc, pos, what, query, device).chat.msgs;
    var more := after[|c.msgs|..];
    assert after == c.msgs + more;
    ExtendTrimmed(c.msgs, more);
  }

  lemma SendAppends(c: Chat, text: Option<string>, ready: bool, reply: ModelReply)
    requires UserTextsTrimmed(c.msgs)
    ensures var after := SendNow(c, text, ready, reply).chat.msgs;
            |c.msgs| <= |after| && after[..|c.msgs|] == c.msgs && UserTextsTrimmed(after)
  {
    var q := Query(c, text);
    if q != "" {
      var intent := NearbyIntent(q);
      AppendedTrimmed(q, intent, ready, reply);
      ExtendTrimmed(c.msgs, Appended(q, intent, ready, reply));
    }
  }

  lemma AppendedTrimmed(q: string, intent: bool, ready: bool, reply: ModelReply)
    requires Trimmed(q)
    ensures UserTextsTrimmed(Appended(q, intent, ready, reply))
  {
  }

  lemma ExtendTrimmed(msgs: seq<Message>, more: seq<Message>)
    requires UserTextsTrimmed(msgs) && UserTextsTrimmed(more)
    ensures UserTextsTrimmed(msgs + more) && (msgs + more)[..|msgs|] == msgs
  {
    forall k | 0 <= k < |msgs + more| && (msgs + more)[k].role == You
      ensures Trimmed((msgs + more)[k].text)
    {
      if k < |msgs| {
        assert (msgs + more)[k] == msgs[k];
      } else {
        assert (msgs + more)[k] == more[k - |msgs|];
      }
    }
  }

  /** The user's messages are exactly the texts trimming leaves alone. */
  lemma TrimmedIffFixed(t: string)
    ensures Trimmed(t) <==> t != "" && Trim(t) == t
  {
    if Trimmed(t) {
      StripUnchanged(t, JsSpace);
    }
  }
}

=== FILE: email_notifier.dfy ===
/** The back end's alert mailer: its configuration read from the environment
    (SMTP host and port with defaults, credentials, and the comma-separated
    recipient list), the guard in front of sending, and the headers of the
    alert. The SMTP exchange itself is a result passed in. */
module EmailNotifier {
  import opened Wrappers
  import opened Text

  const DefaultHost := "smtp.gmail.com"
  const DefaultPort := 587

  /** The environment variables the mailer reads (`None`: unset). `port` is
      SMTP_PORT as `int()` parses it. */
  datatype Env = Env(
    host: Option<string>,
    port: Option<int>,
    user: Option<string>,
    pass: Option<string>,
    alertEmail: Option<string>)

  datatype Notifier = Notifier(
    host: string,
    port: int,
    user: Option<string>,
    pass: Option<string>,
    alertEmails: seq<string>)

  /** One recipient field: outer white space stripped, then outer double
      quotes. */
  function CleanEntry(f: string): (r: string)
    ensures r == [] || (r[0] != '"' && r[|r| - 1] != '"')
    ensures forall c :: c in r ==> c in f
  {
    var spaced := Strip(f, PySpace);
    StripKeepsChars(f, PySpace);
    StripKeepsChars(spaced, Only('"'));
    Strip(spaced, Only('"'))
  }

  /** The recipient list: empty when ALERT_EMAIL is unset or empty, otherwise
      one cleaned entry per comma-separated field, in order. */
  function ParseRecipients(raw: Option<string>): (r: seq<string>)
    ensures raw == None || raw == Some("") ==> r == []
    ensures raw.Some? && raw.value != "" ==>
              |r| == Count(raw.value, ',') + 1
              && forall i :: 0 <= i < |r| ==> r[i] == CleanEntry(Split(raw.value, ',')[i])
    ensures forall i :: 0 <= i < |r| ==> ',' !in r[i]
  {
    if raw == None || raw == Some("") then []
    else
      var fields := Split(raw.value, ',');
      seq(|fields|, i requires 0 <= i < |fields| => CleanEntry(fields[i]))
  }

  /** An address that `CleanEntry` leaves alone: no comma, and no white space
      or double quote at either end. */
  predicate CleanAddress(a: string) {
    && ',' !in a
    && (a == [] || (!IsPySpace(a[0]) && a[0] != '"' && !IsPySpace(a[|a| - 1]) && a[|a| - 1] != '"'))
  }

  /** A clean address is its own cleaned entry. */
  lemma {:induction false} CleanAddressUnchanged(a: string)
    requires CleanAddress(a)
    ensures CleanEntry(a) == a
  {
    assert a == [] || (!InClass(PySpace, a[0]) && !InClass(PySpace, a[|a| - 1]));
    StripUnchanged(a, PySpace);
    assert Strip(a, PySpace) == a;
    assert a == [] || (!InClass(Only('"'), a[0]) && !InClass(Only('"'), a[|a| - 1]));
    StripUnchanged(a, Only('"'));
  }

  /** Joining clean addresses with commas and parsing gives them back. */
  lemma {:induction false} RecipientsRoundTrip(addresses: seq<string>)
    requires |addresses| >= 1 && Join(addresses, ",") != ""
    requires forall i :: 0 <= i < |addresses| ==> CleanAddress(addresses[i])
    ensures ParseRecipients(Some(Join(addresses, ","))) == addresses
  {
    var joined := Join(addresses, ",");
    var fields := Split(joined, ',');
    SplitOfJoin(addresses, ',');
    assert fields == addresses;
    var r := ParseRecipients(Some(joined));
    assert |r| == |fields|;
    forall i | 0 <= i < |addresses|
      ensures r[i] == addresses[i]
    {
      CleanAddressUnchanged(addresses[i]);
    }
  }

  /** A list of only commas passes the emptiness guard with empty recipients. */
  lemma CommasOnlyGiveEmptyEntries()
    ensures ParseRecipients(Some(",")) == ["", ""]
  {
    assert Split(",", ',') == ["", ""] by {
      assert IndexOf(",", ',') == 0;
      assert ","[1..] == "";
    }
    StripUnchanged("", PySpace);
    StripUnchanged("", Only('"'));
  }

  /** Reading the configuration: defaults for host and port. */
  function Configure(env: Env): (n: Notifier)
    ensures n.host == env.host.GetOr(DefaultHost) && n.port == env.port.GetOr(DefaultPort)
    ensures env.port == None ==> n.port == 587
    ensures n.user == env.user && n.pass == env.pass
    ensures n.alertEmails == ParseRecipients(env.alertEmail)
  {
    Notifier(env.host.GetOr(DefaultHost), env.port.GetOr(DefaultPort), env.user, env.pass,
             ParseRecipients(env.alertEmail))
  }

  /** A credential is present when it is set and not empty (Python truthiness). */
  predicate Present(v: Option<string>) {
    v.Some? && v.value != ""
  }

  /** The configuration guard in front of sending. */
  predicate CanSend(n: Notifier) {
    Present(n.user) && Present(n.pass) && |n.alertEmails| > 0
  }

  datatype Headers = Headers(from: string, to: string, subject: string)

  /** The alert's subject line. */
  function Subject(jobId: string): (s: string)
    ensures Contains(s, jobId) && StartsWith(s, "\U{1F6A8} [긴급]")
  {
    var prefix := "\U{1F6A8} [긴급] 화재 감지 알림 - Job ";
    var s := prefix + jobId;
    assert s[|prefix|..|prefix| + |jobId|] == jobId;
    assert OccursAt(s, jobId, |prefix|);
    s
  }

  /** The SMTP exchange's result: delivered, or an exception was raised. */
  datatype Smtp = Delivered | Raised

  datatype SendOutcome = SendOutcome(sent: bool, contacted: bool, headers: Option<Headers>)

  /** `send_emergency_alert`: without complete configuration it returns False
      without contacting the server; otherwise it builds the headers and
      returns whether the exchange got through. */
  function SendEmergencyAlert(n: Notifier, jobId: string, smtp: Smtp): (r: SendOutcome)
    ensures r.contacted <==> CanSend(n)
    ensures r.sent <==> CanSend(n) && smtp == Delivered
    ensures r.headers.Some? <==> r.contacted
    ensures r.headers.Some? ==>
              r.headers.value == Headers(n.user.value, Join(n.alertEmails, ", "), Subject(jobId))
  {
    if !CanSend(n) then SendOutcome(false, false, None)
    else SendOutcome(smtp == Delivered, true, Some(Headers(n.user.value, Join(n.alertEmails, ", "), Subject(jobId))))
  }

  /** An unset or empty ALERT_EMAIL means no mail is ever attempted. */
  lemma NoRecipientsNoMail(env: Env, jobId: string, smtp: Smtp)
    requires env.alertEmail == None || env.alertEmail == Some("")
    ensures !SendEmergencyAlert(Configure(env), jobId, smtp).contacted
  {
  }
}

=== FILE: login.dfy ===
/** The login page: the guard order in front of `signInWithPassword`, the
    handling of its reply (unconfirmed e-mail, the credentials message), the
    user-id fallback the page computes but never uses, and the password-reset
    request, which shows the same message whatever the auth service answers. */
module Login {
  import opened Wrappers
  import opened Text
  import opened Validators

  datatype Form = Form(email: string, password: string)

  /** The guards in front of sign-in: blank e-mail, blank password (both after
      trimming), then the e-mail format. */
  function LoginGate(f: Form): (g: Gate)
    ensures g in {BlankEmail, BlankPassword, BadEmail, Proceed}
    ensures g == BlankEmail <==> Blank(f.email)
    ensures g == BlankPassword <==> !Blank(f.email) && Blank(f.password)
    ensures g == BadEmail <==> !Blank(f.email) && !Blank(f.password) && !EmailPattern(f.email)
    ensures g == Proceed <==> !Blank(f.email) && !Blank(f.password) && EmailPattern(f.email)
  {
    if Blank(f.email) then BlankEmail
    else if Blank(f.password) then BlankPassword
    else if !EmailPattern(f.email) then BadEmail
    else Proceed
  }

  /** A password of white space only never reaches sign-in: with an e-mail
      filled in it is reported as missing. */
  lemma WhitespacePasswordRejected(f: Form)
    requires !Blank(f.email) && All(f.password, JsSpace)
    ensures LoginGate(f) == BlankPassword
  {
  }

  /** The user record of a sign-in reply: whether `email_confirmed_at` is set,
      and `user_metadata.user_id` if present. */
  datatype User = User(emailConfirmed: bool, metaUserId: Option<string>)

  /** The auth service's answer: an error (returned or thrown) with its
      message, or a reply that may or may not carry a user. */
  datatype SignInReply = SignInFailed(message: string) | SignedIn(user: Option<User>)

  /** `user_metadata?.user_id || email.split('@')[0]`. */
  function FallbackUserId(meta: Option<string>, email: string): (r: string)
    ensures meta.Some? && meta.value != "" ==> r == meta.value
    ensures meta == None || meta == Some("") ==>
              '@' !in r && StartsWith(email, r) && ('@' in email ==> |r| < |email| && email[|r|] == '@')
  {
    if meta.Some? && meta.value != "" then meta.value else FirstField(email, '@')
  }

  /** For an e-mail that passed the format guard, the fallback id is the
      whole, non-empty local part. */
  lemma FallbackIsLocalPart(email: string)
    requires EmailShape(email)
    ensures var r := FallbackUserId(None, email);
            r != "" && email == r + "@" + email[|r| + 1..] && '@' !in email[|r| + 1..]
  {
    var a :| && 0 < a < |email| && email[a] == '@'
             && (forall i :: 0 <= i < |email| && i != a ==> email[i] != '@')
             && (exists k :: a + 1 < k < |email| - 1 && email[k] == '.');
    var r := FallbackUserId(None, email);
    assert |r| == a;
    assert email == r + "@" + email[|r| + 1..];
    var domain := email[|r| + 1..];
    forall i | 0 <= i < |domain|
      ensures domain[i] != '@'
    {
      assert domain[i] == email[a + 1 + i];
    }
  }

  datatype LoginOutcome = LoginOutcome(
    alert: Option<Alert>,
    signInCalled: bool,
    signedOut: bool,
    navigateTo: Option<string>)

  /** Pressing "login". The user id derived on success (FallbackUserId) is
      computed and then discarded: the navigation carries no id. */
  function SubmitLogin(f: Form, reply: SignInReply): (r: LoginOutcome)
    ensures r.signInCalled <==> LoginGate(f) == Proceed
    ensures !r.signInCalled ==> r == LoginOutcome(Some(GateAlert(LoginGate(f))), false, false, None)
    ensures r.navigateTo.Some? <==> r.signInCalled && reply.SignedIn? && reply.user.Some? && reply.user.value.emailConfirmed
    ensures r.navigateTo.Some? ==> r.navigateTo == Some("/analysis") && r.alert == Some(LoginSucceeded)
    ensures r.signedOut <==> r.signInCalled && reply.SignedIn? && reply.user.Some? && !reply.user.value.emailConfirmed
    ensures r.signedOut ==> r.alert == Some(EmailUnconfirmed) && r.navigateTo == None
    ensures r.signInCalled && reply.SignInFailed? ==>
              r.alert == Some(if Contains(reply.message, "Invalid login credentials") then BadCredentials
                              else LoginFailed(reply.message))
    ensures r.signInCalled && reply == SignedIn(None) ==> r.alert == None && r.navigateTo == None
  {
    var gate := LoginGate(f);
    if gate != Proceed then
      LoginOutcome(Some(GateAlert(gate)), false, false, None)
    else
      match reply
      case SignInFailed(m) =>
        var alert := if Contains(m, "Invalid login credentials") then BadCredentials else LoginFailed(m);
        LoginOutcome(Some(alert), true, false, None)
      case SignedIn(None) => LoginOutcome(None, true, false, None)
      case SignedIn(Some(u)) =>
        if !u.emailConfirmed then
          LoginOutcome(Some(EmailUnconfirmed), true, true, None)
        else
          LoginOutcome(Some(LoginSucceeded), true, false, Some("/analysis"))
  }

  /** Reaching the analysis page takes an e-mail of the required shape, a
      password that is not blank, and a confirmed user record. */
  lemma NavigationNeedsWellFormedForm(f: Form, reply: SignInReply)
    requires SubmitLogin(f, reply).navigateTo.Some?
    ensures EmailShape(f.email) && !Blank(f.password)
    ensures reply.SignedIn? && reply.user.Some? && reply.user.value.emailConfirmed
  {
    EmailPatternIffShape(f.email);
  }

  datatype ResetRequest = ResetRequest(alert: Option<Alert>, requestSent: bool)

  /** "Forgot password": the prompt's answer (`None` when cancelled) and
      whether `resetPasswordForEmail` succeeded. A cancelled or empty prompt
      does nothing; a malformed address is rejected; otherwise the request is
      sent and the same message is shown whatever the answer, so the page does
      not reveal which addresses have accounts. */
  function RequestReset(prompt: Option<string>, succeeded: bool): (r: ResetRequest)
    ensures prompt == None || prompt == Some("") ==> r == ResetRequest(None, false)
    ensures r.requestSent <==> prompt.Some? && EmailPattern(prompt.value)
    ensures prompt.Some? && prompt.value != "" && !EmailPattern(prompt.value) ==>
              r.alert == Some(BadEmailFormat)
    ensures r.requestSent ==> r.alert == Some(ResetLinkSent)
  {
    if prompt == None || prompt == Some("") then ResetRequest(None, false)
    else if !EmailPattern(prompt.value) then ResetRequest(Some(BadEmailFormat), false)
    else if succeeded then ResetRequest(Some(ResetLinkSent), true)
    else ResetRequest(Some(ResetLinkSent), true)
  }

  /** The outcome of a reset request does not depend on the auth service's
      answer. */
  lemma ResetAnswerNotRevealed(prompt: Option<string>)
    ensures RequestReset(prompt, true) == RequestReset(prompt, false)
  {
  }
}

=== FILE: monitoring.dfy ===
/** Values shared by the live-monitoring components: the score triple a tick
    carries, the state labels the analysis server reports, the JavaScript value a
    tick's timestamp may take, and one entry of the session's event log. */
module Monitoring {
  import opened Wrappers

  /** Fire, smoke and hazard probabilities of one analysed frame. */
  datatype Scores = Scores(fire: real, smoke: real, hazard: real)

  const ZeroScores: Scores := Scores(0.0, 0.0, 0.0)

  // The state labels the server attaches to a tick. Any other string is possible
  // on the wire and is shown as "analysing".
  const NORMAL: string := "NORMAL"
  const PRE_FIRE: string := "PRE_FIRE"
  const SMOKE_DETECTED: string := "SMOKE_DETECTED"
  const FIRE_GROWING: string := "FIRE_GROWING"
  const CALL_119: string := "CALL_119"

  const KnownStates: set<string> := {NORMAL, PRE_FIRE, SMOKE_DETECTED, FIRE_GROWING, CALL_119}

  /** The JavaScript value of a timestamp field: a number, the number NaN, or
      something that is not a number at all (null, undefined, a string, ...). */
  datatype Stamp = Num(value: real) | NaN | NotNumber

  /** One entry of the event log: the tick's `t`, `state` and `scores`, and the
      position `frame` it was given when appended. `scores` is `None` when the
      entry carries no score object. */
  datatype Observation = Observation(timestamp: Stamp, state: string, scores: Option<Scores>, frame: int)
}

=== FILE: resetpw.dfy ===
/** The password-reset page reached from the reset e-mail: a two-field form,
    the same password rule and confirmation as sign-up, and the guard order in
    front of the auth service's `updateUser`. */
module Resetpw {
  import opened Wrappers
  import opened Validators

  datatype Field = PasswordField | ConfirmField

  datatype Form = Form(password: string, confirmPassword: string)

  const InitialForm := Form("", "")

  function FieldValue(f: Form, field: Field): string {
    match field
    case PasswordField => f.password
    case ConfirmField => f.confirmPassword
  }

  /** Typing into one field changes that field only; this page keeps no flags
      that an edit would reset. */
  function Edit(f: Form, field: Field, value: string): (r: Form)
    ensures FieldValue(r, field) == value
    ensures forall g: Field :: g != field ==> FieldValue(r, g) == FieldValue(f, g)
  {
    match field
    case PasswordField => f.(password := value)
    case ConfirmField => f.(confirmPassword := value)
  }

  /** The guards in front of `updateUser`: the password rule first, then the
      confirmation. */
  function ResetGate(f: Form): (g: Gate)
    ensures g in {WeakPassword, Mismatch, Proceed}
    ensures g == WeakPassword <==> !PasswordValid(f.password)
    ensures g == Mismatch <==> PasswordValid(f.password) && !PasswordsMatch(f.password, f.confirmPassword)
    ensures g == Proceed <==> PasswordValid(f.password) && PasswordsMatch(f.password, f.confirmPassword)
  {
    if !PasswordValid(f.password) then WeakPassword
    else if !PasswordsMatch(f.password, f.confirmPassword) then Mismatch
    else Proceed
  }

  /** An invalid password is reported as such even when the confirmation
      differs too. */
  lemma WeakBeforeMismatch(f: Form)
    requires !PasswordRule(f.password) && f.password != f.confirmPassword
    ensures ResetGate(f) == WeakPassword
  {
  }

  /** The auth service's answer to `updateUser`. */
  datatype UpdateReply = Updated | UpdateFailed(message: string)

  datatype Outcome = Outcome(alert: Alert, updateCalled: bool, navigateTo: Option<string>)

  /** Pressing "change password". */
  function SubmitReset(f: Form, reply: UpdateReply): (r: Outcome)
    ensures r.updateCalled <==> ResetGate(f) == Proceed
    ensures !r.updateCalled ==> r.navigateTo == None && r.alert == GateAlert(ResetGate(f))
    ensures r.updateCalled && reply == Updated ==> r.alert == PasswordChanged && r.navigateTo == Some("/user/login")
    ensures r.updateCalled && reply.UpdateFailed? ==>
              r.alert == PasswordResetFailed(reply.message) && r.navigateTo == None
  {
    var gate := ResetGate(f);
    if gate != Proceed then
      Outcome(GateAlert(gate), false, None)
    else
      match reply
      case Updated => Outcome(PasswordChanged, true, Some("/user/login"))
      case UpdateFailed(m) => Outcome(PasswordResetFailed(m), true, None)
  }

  /** The new password sent to the auth service always satisfies the rule and
      equals its confirmation. */
  lemma UpdateOnlyWithGoodPassword(f: Form, reply: UpdateReply)
    requires SubmitReset(f, reply).updateCalled
    ensures PasswordRule(f.password) && 8 <= |f.password| <= 16
    ensures f.password == f.confirmPassword
  {
  }
}

=== FILE: signup.dfy ===
/** The sign-up page (frontend copy): the form, the validation flags, the
    edit-time flag resets, the user-id duplicate check and the e-mail
    verification request with its guard order and its handling of the auth
    service's replies. The remote calls are replies passed in. */
module Signup {
  import opened Wrappers
  import opened Text
  import opened Validators

  datatype Field = UserIdField | PasswordField | ConfirmField | EmailField

  datatype Form = Form(userId: string, password: string, confirmPassword: string, email: string)

  /** The flags the handlers set. `passwordValid` and `passwordMatch` are
      recomputed by effects from the form after every edit, so they are
      derived here (`Valid`, `Matches`) rather than stored. */
  datatype Flags = Flags(isUserIdChecked: bool, isEmailSent: bool, isUserIdDuplicate: bool)

  datatype Page = Page(form: Form, flags: Flags)

  const InitialPage := Page(Form("", "", "", ""), Flags(false, false, false))

  function FieldValue(f: Form, field: Field): string {
    match field
    case UserIdField => f.userId
    case PasswordField => f.password
    case ConfirmField => f.confirmPassword
    case EmailField => f.email
  }

  /** The settled value of `passwordValid`. */
  predicate Valid(p: Page) {
    PasswordValid(p.form.password)
  }

  /** The settled value of `passwordMatch`. */
  predicate Matches(p: Page) {
    PasswordsMatch(p.form.password, p.form.confirmPassword)
  }

  /** The page invariant: the id is never both "checked" and "duplicate", and a
      checked id is one that passed the format test. */
  predicate Good(p: Page) {
    && !(p.flags.isUserIdChecked && p.flags.isUserIdDuplicate)
    && (p.flags.isUserIdChecked ==> UserIdRule(p.form.userId))
  }

  lemma InitialGood()
    ensures Good(InitialPage) && !Valid(InitialPage) && !Matches(InitialPage)
  {
  }

  // ---------------------------------------------------------------------------
  // Editing
  // ---------------------------------------------------------------------------

  /** Typing into one field: that field takes the value, the other fields keep
      theirs; an id edit withdraws the duplicate-check result and an e-mail
      edit withdraws "e-mail sent". */
  function Edit(p: Page, field: Field, value: string): (r: Page)
    ensures FieldValue(r.form, field) == value
    ensures forall g: Field :: g != field ==> FieldValue(r.form, g) == FieldValue(p.form, g)
    ensures field == UserIdField ==>
              r.flags == p.flags.(isUserIdChecked := false, isUserIdDuplicate := false)
    ensures field == EmailField ==> r.flags == p.flags.(isEmailSent := false)
    ensures field == PasswordField || field == ConfirmField ==> r.flags == p.flags
    ensures Good(p) ==> Good(r)
  {
    match field
    case UserIdField =>
      Page(p.form.(userId := value), p.flags.(isUserIdChecked := false, isUserIdDuplicate := false))
    case PasswordField => Page(p.form.(password := value), p.flags)
    case ConfirmField => Page(p.form.(confirmPassword := value), p.flags)
    case EmailField => Page(p.form.(email := value), p.flags.(isEmailSent := false))
  }

  // ---------------------------------------------------------------------------
  // User-id duplicate check
  // ---------------------------------------------------------------------------

  /** The duplicate-check RPC's answer: the id is taken, it is free, or the
      call failed (an error reply or an exception). */
  datatype Lookup = Taken | Free | LookupFailed

  datatype IdCheck = IdCheck(page: Page, alert: Alert, queried: bool)

  /** Pressing "duplicate check". */
  function CheckUserId(p: Page, lookup: Lookup): (r: IdCheck)
    ensures r.page.form == p.form
    ensures r.page.flags.isEmailSent == p.flags.isEmailSent
    ensures r.queried <==> UserIdRule(p.form.userId)
    ensures Blank(p.form.userId) ==> r.alert == EnterId
    ensures !Blank(p.form.userId) && !UserIdRule(p.form.userId) ==> r.alert == BadIdFormat
    ensures !r.queried ==> r.page == p
    ensures r.queried && lookup == Taken ==>
              r.page.flags.isUserIdDuplicate && !r.page.flags.isUserIdChecked && r.alert == IdTaken
    ensures r.queried && lookup == Free ==>
              !r.page.flags.isUserIdDuplicate && r.page.flags.isUserIdChecked && r.alert == IdAvailable
    ensures r.queried && lookup == LookupFailed ==> r.page == p && r.alert == IdCheckFailed
    ensures Good(p) ==> Good(r.page)
  {
    var id := p.form.userId;
    if Blank(id) then
      IdCheck(p, EnterId, false)
    else if !UserIdRule(id) then
      IdCheck(p, BadIdFormat, false)
    else
      match lookup
      case Taken =>
        IdCheck(p.(flags := p.flags.(isUserIdDuplicate := true, isUserIdChecked := false)), IdTaken, true)
      case Free =>
        IdCheck(p.(flags := p.flags.(isUserIdDuplicate := false, isUserIdChecked := true)), IdAvailable, true)
      case LookupFailed =>
        IdCheck(p, IdCheckFailed, true)
  }

  /** An answered duplicate check leaves exactly one of "checked" and
      "duplicate" set. */
  lemma AnsweredCheckSetsOneFlag(p: Page, lookup: Lookup)
    requires UserIdRule(p.form.userId) && lookup != LookupFailed
    ensures CheckUserId(p, lookup).page.flags.isUserIdChecked
            != CheckUserId(p, lookup).page.flags.isUserIdDuplicate
  {
  }

  // ---------------------------------------------------------------------------
  // E-mail verification
  // ---------------------------------------------------------------------------

  /** The guards in front of `signUp`, in the order the handler tests them:
      blank e-mail, e-mail format, id checked, password valid, passwords
      match. Each outcome holds exactly when every earlier guard passed and
      its own failed. */
  function VerificationGate(p: Page): (g: Gate)
    ensures g != BlankPassword
    ensures g == BlankEmail <==> Blank(p.form.email)
    ensures g == BadEmail <==> !Blank(p.form.email) && !EmailPattern(p.form.email)
    ensures g == IdNotChecked <==>
              !Blank(p.form.email) && EmailPattern(p.form.email) && !p.flags.isUserIdChecked
    ensures g == WeakPassword <==>
              !Blank(p.form.email) && EmailPattern(p.form.email) && p.flags.isUserIdChecked && !Valid(p)
    ensures g == Mismatch <==>
              !Blank(p.form.email) && EmailPattern(p.form.email) && p.flags.isUserIdChecked && Valid(p)
              && !Matches(p)
    ensures g == Proceed <==>
              !Blank(p.form.email) && EmailPattern(p.form.email) && p.flags.isUserIdChecked && Valid(p)
              && Matches(p)
  {
    if Blank(p.form.email) then BlankEmail
    else if !EmailPattern(p.form.email) then BadEmail
    else if !p.flags.isUserIdChecked then IdNotChecked
    else if !Valid(p) then WeakPassword
    else if !Matches(p) then Mismatch
    else Proceed
  }

  /** On a good page, `signUp` is requested only for an id that passed the
      format test and was reported free, a password that satisfies the rule
      and equals its confirmation, and an e-mail of the required shape. */
  lemma SignUpOnlyWhenChecked(p: Page)
    requires Good(p) && VerificationGate(p) == Proceed
    ensures UserIdRule(p.form.userId) && !p.flags.isUserIdDuplicate
    ensures PasswordRule(p.form.password) && p.form.password == p.form.confirmPassword
    ensures EmailShape(p.form.email)
  {
    EmailPatternIffShape(p.form.email);
  }

  /** The auth service's answer to `signUp`: an error (returned or thrown,
      with its message), or a user whose `identities` list has the given
      length (`None` when the reply carries no user or no list). */
  datatype SignUpReply = SignUpFailed(message: string) | SignedUp(identities: Option<nat>)

  /** The answer to the `resend` call: success, or an error returned or
      thrown, with its message if it has one. Both failure paths of the
      handler decide alike. */
  datatype ResendReply = Resent | ResendFailed(message: Option<string>)

  /** The rate-limit test on a resend error's message. */
  predicate IsRateLimit(message: Option<string>) {
    message.Some? && (Contains(message.value, "rate limit") || Contains(message.value, "Email rate limit exceeded"))
  }

  /** The second substring test adds nothing: any message containing
      "Email rate limit exceeded" contains "rate limit". */
  lemma RateLimitSecondTestRedundant(message: Option<string>)
    ensures IsRateLimit(message) <==> message.Some? && Contains(message.value, "rate limit")
  {
    if message.Some? && Contains(message.value, "Email rate limit exceeded") {
      assert "Email " + "rate limit" + " exceeded" == "Email rate limit exceeded";
      ContainsInner(message.value, "Email ", "rate limit", " exceeded");
    }
  }

  datatype Submission = Submission(page: Page, alert: Alert, signUpCalled: bool, resendCalled: bool)

  /** Whether the auth service reported an already-existing e-mail by an empty
      `identities` list. */
  predicate ExistingAccount(reply: SignUpReply) {
    reply == SignedUp(Some(0))
  }

  /** Pressing "e-mail verification": the guards, then `signUp`, then for an
      existing account a `resend` whose outcome distinguishes an unverified
      account (mail resent), the rate limit, and an already verified one. */
  function SubmitVerification(p: Page, signUp: SignUpReply, resend: ResendReply): (r: Submission)
    ensures r.page.form == p.form
    ensures r.page.flags == p.flags.(isEmailSent := r.page.flags.isEmailSent)
    ensures r.signUpCalled <==> VerificationGate(p) == Proceed
    ensures !r.signUpCalled ==> r.page == p && r.alert == GateAlert(VerificationGate(p))
    ensures r.resendCalled <==> r.signUpCalled && ExistingAccount(signUp)
    ensures r.page.flags.isEmailSent <==>
              p.flags.isEmailSent
              || (r.signUpCalled && signUp.SignedUp? && (!ExistingAccount(signUp) || resend == Resent))
    ensures r.signUpCalled ==>
              (r.alert == AlreadyRegistered <==>
                 (signUp.SignUpFailed? && Contains(signUp.message, "User already registered"))
                 || (r.resendCalled && resend.ResendFailed? && !IsRateLimit(resend.message)))
    ensures r.alert == ResendRateLimited <==>
              r.resendCalled && resend.ResendFailed? && IsRateLimit(resend.message)
    ensures r.alert == VerificationSent <==> r.signUpCalled && signUp.SignedUp? && !ExistingAccount(signUp)
    ensures r.alert == VerificationResent <==> r.resendCalled && resend == Resent
    ensures r.signUpCalled && signUp.SignUpFailed? && !Contains(signUp.message, "User already registered") ==>
              r.alert == VerificationFailed(signUp.message)
    ensures Good(p) ==> Good(r.page)
  {
    var gate := VerificationGate(p);
    var sent := p.(flags := p.flags.(isEmailSent := true));
    if gate != Proceed then
      Submission(p, GateAlert(gate), false, false)
    else
      match signUp
      case SignUpFailed(m) =>
        var alert := if Contains(m, "User already registered") then AlreadyRegistered else VerificationFailed(m);
        Submission(p, alert, true, false)
      case SignedUp(ids) =>
        if ids == Some(0) then
          match resend
          case Resent => Submission(sent, VerificationResent, true, true)
          case ResendFailed(m) =>
            Submission(p, if IsRateLimit(m) then ResendRateLimited else AlreadyRegistered, true, true)
        else
          Submission(sent, VerificationSent, true, false)
  }

  /** "E-mail sent" is only ever raised by a verification request that passed
      every guard and was not refused by the auth service. */
  lemma EmailSentOnlyAfterAllGuards(p: Page, signUp: SignUpReply, resend: ResendReply)
    requires Good(p) && !p.flags.isEmailSent
    requires SubmitVerification(p, signUp, resend).page.flags.isEmailSent
    ensures UserIdRule(p.form.userId) && !p.flags.isUserIdDuplicate
    ensures PasswordRule(p.form.password) && p.form.password == p.form.confirmPassword
    ensures EmailShape(p.form.email)
    ensures signUp.SignedUp?
  {
    SignUpOnlyWhenChecked(p);
  }
}

=== FILE: signup_master.dfy ===
/** The sign-up page of the older `emergency-master` copy. Its form, flags,
    edit-time resets and duplicate check are the same code as the frontend
    copy and are shared with module Signup; its verification request differs:
    there is no "id checked" guard, and every `signUp` error is echoed. */
module SignupMaster {
  import opened Text
  import opened Validators
  import opened Signup

  /** The guards in front of `signUp`, in order: blank e-mail, e-mail format,
      password valid, passwords match. */
  function VerificationGate(p: Page): (g: Gate)
    ensures g != BlankPassword && g != IdNotChecked
    ensures g == BlankEmail <==> Blank(p.form.email)
    ensures g == BadEmail <==> !Blank(p.form.email) && !EmailPattern(p.form.email)
    ensures g == WeakPassword <==> !Blank(p.form.email) && EmailPattern(p.form.email) && !Valid(p)
    ensures g == Mismatch <==>
              !Blank(p.form.email) && EmailPattern(p.form.email) && Valid(p) && !Matches(p)
    ensures g == Proceed <==>
              !Blank(p.form.email) && EmailPattern(p.form.email) && Valid(p) && Matches(p)
  {
    if Blank(p.form.email) then BlankEmail
    else if !EmailPattern(p.form.email) then BadEmail
    else if !Valid(p) then WeakPassword
    else if !Matches(p) then Mismatch
    else Proceed
  }

  /** The frontend gate is this gate plus the "id checked" guard: the two agree
      whenever the id has been checked, and the frontend lets a request through
      exactly when this one does and the id has been checked. */
  lemma FrontendGateAddsIdCheck(p: Page)
    ensures p.flags.isUserIdChecked ==> Signup.VerificationGate(p) == VerificationGate(p)
    ensures Signup.VerificationGate(p) == Proceed <==>
              VerificationGate(p) == Proceed && p.flags.isUserIdChecked
  {
  }

  /** `signUp` is reachable on a page whose id was never checked. */
  lemma SignUpWithoutIdCheck()
    ensures exists p: Page :: Good(p) && !p.flags.isUserIdChecked && VerificationGate(p) == Proceed
  {
    var email, password := SampleEmail(), SamplePassword();
    var p := Page(Form("", password, password, email), Flags(false, false, false));
    assert Good(p) && !p.flags.isUserIdChecked && VerificationGate(p) == Proceed;
  }

  function SampleEmail(): (s: string)
    ensures !Blank(s) && EmailPattern(s)
  {
    var s := "a@b.cd";
    assert !InClass(JsSpace, s[0]);
    assert Plain(s[..1]) && Plain(s[1 + 1..3]) && Plain(s[3 + 1..]);
    assert s[1] == '@' && s[3] == '.';
    s
  }

  function SamplePassword(): (s: string)
    ensures PasswordValid(s)
  {
    var s := "abcd123!";
    assert IsAsciiLetter(s[0]) && IsAsciiDigit(s[4]) && IsSpecial(s[7]);
    s
  }

  /** Pressing "e-mail verification": the guards, then `signUp`; a reply
      without error marks the e-mail as sent, and any error is echoed. */
  function SubmitVerification(p: Page, signUp: SignUpReply): (r: Submission)
    ensures r.page.form == p.form
    ensures r.page.flags == p.flags.(isEmailSent := r.page.flags.isEmailSent)
    ensures r.signUpCalled <==> VerificationGate(p) == Proceed
    ensures !r.resendCalled
    ensures !r.signUpCalled ==> r.page == p && r.alert == GateAlert(VerificationGate(p))
    ensures r.page.flags.isEmailSent <==> p.flags.isEmailSent || (r.signUpCalled && signUp.SignedUp?)
    ensures r.signUpCalled && signUp.SignUpFailed? ==> r.alert == VerificationFailed(signUp.message)
    ensures r.signUpCalled && signUp.SignedUp? ==> r.alert == VerificationSent
    ensures Good(p) ==> Good(r.page)
  {
    var gate := VerificationGate(p);
    if gate != Proceed then
      Submission(p, GateAlert(gate), false, false)
    else
      match signUp
      case SignUpFailed(m) => Submission(p, VerificationFailed(m), true, false)
      case SignedUp(_) => Submission(p.(flags := p.flags.(isEmailSent := true)), VerificationSent, true, false)
  }
}

=== FILE: state_indicator.dfy ===
/** The severity panel of the live-monitoring page: which state it displays,
    how each state is presented, the threat band of the strongest score, and the
    one-way latch that keeps the emergency (119) button on screen. */
module StateIndicator {
  import opened Wrappers
  import opened Monitoring

  // ---------------------------------------------------------------------------
  // Display override
  // ---------------------------------------------------------------------------

  /** Both primary risk signals are low on the percent scale: fire below 15 %
      and hazard below 45 %. */
  predicate Quiet(s: Scores) {
    s.fire * 100.0 < 15.0 && s.hazard * 100.0 < 45.0
  }

  /** The state the panel shows: NORMAL while the scores are quiet, whatever the
      server reported; the reported state otherwise. */
  function DisplayState(scores: Scores, reported: string): (r: string)
    ensures r == NORMAL || r == reported
    ensures r != reported ==> Quiet(scores) && reported != NORMAL
    ensures Quiet(scores) ==> r == NORMAL
  {
    if Quiet(scores) then NORMAL else reported
  }

  // ---------------------------------------------------------------------------
  // Presentation table
  // ---------------------------------------------------------------------------

  datatype Priority = Safe | Warning | Caution | Danger | Emergency | Neutral

  datatype StateInfo = StateInfo(icon: string, text: string, description: string,
                                 color: string, bgColor: string, priority: Priority)

  const NeutralInfo: StateInfo :=
    StateInfo("⚪", "분석 중", "영상을 분석하고 있습니다.", "#6c757d", "rgba(108, 117, 125, 0.1)", Neutral)

  /** The presentation of a state label. Total: the five known labels have their
      own entries, with pairwise different priorities, and every other string
      (including "") gets the neutral "analysing" entry. */
  function GetStateInfo(state: string): (r: StateInfo)
    ensures state !in KnownStates <==> r == NeutralInfo
    ensures state in KnownStates ==> r.priority != Neutral
    ensures state == NORMAL <==> r.priority == Safe
    ensures state == PRE_FIRE <==> r.priority == Warning
    ensures state == SMOKE_DETECTED <==> r.priority == Caution
    ensures state == CALL_119 <==> r.priority == Emergency
    ensures state == FIRE_GROWING <==> r.priority == Danger
  {
    if state == NORMAL then
      StateInfo("🟢", "정상", "위험 요소가 감지되지 않았습니다.", "#28a745", "rgba(40, 167, 69, 0.1)", Safe)
    else if state == PRE_FIRE then
      StateInfo("🟡", "화재 전조", "화재 발생 가능성이 감지되었습니다.", "#ffc107", "rgba(255, 193, 7, 0.1)", Warning)
    else if state == SMOKE_DETECTED then
      StateInfo("🟠", "연기 감지", "연기가 감지되었습니다. 주의가 필요합니다.", "#fd7e14", "rgba(253, 126, 20, 0.1)", Caution)
    else if state == FIRE_GROWING then
      StateInfo("🔴", "화재 확산", "화재가 확산되고 있습니다. 즉시 대피하세요.", "#dc3545", "rgba(220, 53, 69, 0.1)", Danger)
    else if state == CALL_119 then
      StateInfo("🚨", "119 호출", "긴급상황입니다. 119에 즉시 신고하세요.", "#ff3333", "rgba(255, 51, 51, 0.1)", Emergency)
    else
      NeutralInfo
  }

  // ---------------------------------------------------------------------------
  // Threat level
  // ---------------------------------------------------------------------------

  datatype Threat = Minimal | Low | Medium | High | Critical

  /** Position of a threat level in the order minimal < low < medium < high < critical. */
  function ThreatRank(t: Threat): nat {
    match t
    case Minimal => 0
    case Low => 1
    case Medium => 2
    case High => 3
    case Critical => 4
  }

  /** The band boundaries, lowest first. */
  const Cutoffs: seq<real> := [0.2, 0.4, 0.6, 0.8]

  /** `Math.max(fire, smoke, hazard)`. */
  function MaxScore(s: Scores): (m: real)
    ensures m >= s.fire && m >= s.smoke && m >= s.hazard
    ensures m == s.fire || m == s.smoke || m == s.hazard
  {
    var fs := if s.fire >= s.smoke then s.fire else s.smoke;
    if fs >= s.hazard then fs else s.hazard
  }

  /** The threat band of the strongest score: the level's rank exceeds `i`
      exactly when the maximum reaches the `i`-th cutoff. */
  function ThreatLevel(s: Scores): (t: Threat)
    ensures forall i :: 0 <= i < |Cutoffs| ==> (ThreatRank(t) > i <==> MaxScore(s) >= Cutoffs[i])
  {
    var m := MaxScore(s);
    if m >= 0.8 then Critical
    else if m >= 0.6 then High
    else if m >= 0.4 then Medium
    else if m >= 0.2 then Low
    else Minimal
  }

  /** A larger maximum score never yields a lower threat level. */
  lemma ThreatMonotone(a: Scores, b: Scores)
    requires MaxScore(a) <= MaxScore(b)
    ensures ThreatRank(ThreatLevel(a)) <= ThreatRank(ThreatLevel(b))
  {
    var ra := ThreatRank(ThreatLevel(a));
    if ra > 0 {
      assert MaxScore(a) >= Cutoffs[ra - 1];
      assert ThreatRank(ThreatLevel(b)) > ra - 1;
    }
  }

  // ---------------------------------------------------------------------------
  // Emergency latch
  // ---------------------------------------------------------------------------

  /** What the panel is rendered with: the reported state, the scores and the
      analysis job it belongs to. */
  datatype Props = Props(state: string, scores: Scores, jobId: Option<string>)

  /** The arming condition, on the reported (not the displayed) state and the
      percent scale: CALL_119 with fire at least 15 % or hazard at least 45 %,
      or FIRE_GROWING with hazard at least 60 %. */
  predicate ShouldArm(p: Props) {
    || (p.state == CALL_119 && (p.scores.fire * 100.0 >= 15.0 || p.scores.hazard * 100.0 >= 45.0))
    || (p.state == FIRE_GROWING && p.scores.hazard * 100.0 >= 60.0)
  }

  /** Whenever the latch condition holds the display override is off, so the
      panel shows the reported state. */
  lemma ArmingShowsReportedState(p: Props)
    requires ShouldArm(p)
    ensures DisplayState(p.scores, p.state) == p.state
  {
  }

  /** The arming effect's dependency list: the reported state and the two
      percent scores. React re-runs the effect only when one of them changed. */
  predicate ArmDepsChanged(before: Props, after: Props) {
    || before.state != after.state
    || before.scores.fire * 100.0 != after.scores.fire * 100.0
    || before.scores.hazard * 100.0 != after.scores.hazard * 100.0
  }

  /** The panel's own state: its last props and the latch. */
  datatype Indicator = Indicator(props: Props, latched: bool)

  /** First render: both effects run, the reset effect last, so the latch starts
      cleared even when the first props qualify. */
  function Mount(p: Props): (r: Indicator)
    ensures r.props == p && !r.latched
  {
    Indicator(p, false)
  }

  /** A re-render with new props. The arming effect (run only when its
      dependencies changed) can only set the latch; the reset effect (run only
      when the job changed) runs after it and clears the latch. */
  function Render(ind: Indicator, p: Props): (r: Indicator)
    ensures r.props == p
    ensures p.jobId != ind.props.jobId ==> !r.latched
    ensures p.jobId == ind.props.jobId && ind.latched ==> r.latched
    ensures p.jobId == ind.props.jobId && ArmDepsChanged(ind.props, p) && ShouldArm(p) ==> r.latched
    ensures r.latched && !ind.latched ==> ShouldArm(p) && ArmDepsChanged(ind.props, p)
  {
    var armed := if ArmDepsChanged(ind.props, p) && ShouldArm(p) then true else ind.latched;
    var latched := if p.jobId != ind.props.jobId then false else armed;
    Indicator(p, latched)
  }

  /** The operator's acknowledgement clears the latch and nothing else. */
  function Ack(ind: Indicator): (r: Indicator)
    ensures !r.latched && r.props == ind.props
  {
    ind.(latched := false)
  }

  /** A run of re-renders, oldest props first. */
  function RenderAll(ind: Indicator, ps: seq<Props>): Indicator
    decreases |ps|
  {
    if |ps| == 0 then ind else RenderAll(Render(ind, ps[0]), ps[1..])
  }

  /** The props rendered just before the `i`-th one of the run. */
  function PrevProps(ind: Indicator, ps: seq<Props>, i: nat): Props
    requires i < |ps|
  {
    if i == 0 then ind.props else ps[i - 1]
  }

  /** The `i`-th render of the run fires the arming effect with a qualifying
      condition. */
  predicate ArmsAt(ind: Indicator, ps: seq<Props>, i: nat)
    requires i < |ps|
  {
    ArmDepsChanged(PrevProps(ind, ps, i), ps[i]) && ShouldArm(ps[i])
  }

  /** Within one job the latch is monotone: after a run of renders it is set
      exactly when it was set before the run or some render of the run armed it;
      later low scores never clear it. */
  lemma {:induction false} LatchWithinJob(ind: Indicator, ps: seq<Props>)
    requires forall i :: 0 <= i < |ps| ==> ps[i].jobId == ind.props.jobId
    ensures RenderAll(ind, ps).latched <==> ind.latched || exists i :: 0 <= i < |ps| && ArmsAt(ind, ps, i)
    decreases |ps|
  {
    if |ps| > 0 {
      var next := Render(ind, ps[0]);
      LatchWithinJob(next, ps[1..]);
      assert forall i :: 0 <= i < |ps| - 1 ==> (ArmsAt(next, ps[1..], i) <==> ArmsAt(ind, ps, i + 1)) by {
        forall i | 0 <= i < |ps| - 1
          ensures ArmsAt(next, ps[1..], i) <==> ArmsAt(ind, ps, i + 1)
        {
          assert PrevProps(next, ps[1..], i) == PrevProps(ind, ps, i + 1);
        }
      }
      assert RenderAll(ind, ps) == RenderAll(next, ps[1..]);
      assert PrevProps(ind, ps, 0) == ind.props;
      if RenderAll(ind, ps).latched && !ind.latched && !next.latched {
        var j :| 0 <= j < |ps| - 1 && ArmsAt(next, ps[1..], j);
        assert ArmsAt(ind, ps, j + 1);
      }
      if next.latched && !ind.latched {
        assert ArmsAt(ind, ps, 0);
      }
      if exists i :: 0 <= i < |ps| && ArmsAt(ind, ps, i) {
        var j :| 0 <= j < |ps| && ArmsAt(ind, ps, j);
        if j > 0 {
          assert ArmsAt(next, ps[1..], j - 1);
        } else {
          assert next.latched;
        }
      }
    }
  }

  // ---------------------------------------------------------------------------
  // What the panel shows
  // ---------------------------------------------------------------------------

  datatype View = View(info: StateInfo, threat: Threat, emergencyButton: bool)

  /** The rendered panel: presentation of the displayed state, threat band of
      the scores, and the emergency button, present exactly while latched. */
  function ViewOf(ind: Indicator): (v: View)
    ensures v.emergencyButton <==> ind.latched
    ensures v.info == GetStateInfo(DisplayState(ind.props.scores, ind.props.state))
    ensures Quiet(ind.props.scores) ==> v.info.priority == Safe
  {
    View(GetStateInfo(DisplayState(ind.props.scores, ind.props.state)),
         ThreatLevel(ind.props.scores),
         ind.latched)
  }

  // ---------------------------------------------------------------------------
  // Emergency notification request
  // ---------------------------------------------------------------------------

  /** The notification endpoint's answer: success with its message, a non-2xx
      answer with its `detail`, or a thrown error (network, unparsable body). */
  datatype NotifyReply = NotifyOk(message: string) | NotifyRejected(detail: string) | NotifyThrew(error: string)

  /** The button's handler. No request is made without a (non-empty) job id;
      otherwise the alert text reflects the reply. `None` means no request and
      no alert. */
  function EmergencyCall(jobId: Option<string>, reply: NotifyReply): (alert: Option<string>)
    ensures (jobId.None? || jobId.value == "") <==> alert.None?
    ensures alert.Some? && reply.NotifyOk? ==> alert.value == "✅ " + reply.message
  {
    if jobId.None? || jobId.value == "" then None
    else match reply
      case NotifyOk(m) => Some("✅ " + m)
      case NotifyRejected(d) => Some("❌ 이메일 발송 실패: " + d)
      case NotifyThrew(e) => Some("❌ 이메일 발송 중 오류가 발생했습니다: " + e)
  }
}

=== FILE: text.dfy ===
/** String operations the original code takes from its languages' runtimes:
    `trim`/`strip`, `split`/`join`, `startsWith`, `includes`, and the decimal
    rendering of a number inside a template string. Strings are sequences of
    Unicode scalar values. */
module Text {

  // ---------------------------------------------------------------------------
  // Character classes
  // ---------------------------------------------------------------------------

  /** The characters JavaScript's `String.prototype.trim` removes and that the
      regular-expression class `\s` matches (WhiteSpace and LineTerminator). */
  predicate IsJsSpace(c: char) {
    || c == '\t' || c == '\n' || c == '\U{000B}' || c == '\U{000C}' || c == '\r'
    || c == ' ' || c == '\U{00A0}' || c == '\U{1680}'
    || ('\U{2000}' <= c <= '\U{200A}')
    || c == '\U{2028}' || c == '\U{2029}' || c == '\U{202F}' || c == '\U{205F}'
    || c == '\U{3000}' || c == '\U{FEFF}'
  }

  /** The characters Python's argument-less `str.strip()` removes
      (those for which `str.isspace()` holds). */
  predicate IsPySpace(c: char) {
    || ('\t' <= c <= '\r')
    || ('\U{001C}' <= c <= '\U{001F}')
    || c == ' ' || c == '\U{0085}' || c == '\U{00A0}' || c == '\U{1680}'
    || ('\U{2000}' <= c <= '\U{200A}')
    || c == '\U{2028}' || c == '\U{2029}' || c == '\U{202F}' || c == '\U{205F}'
    || c == '\U{3000}'
  }

  predicate IsAsciiLetter(c: char) {
    ('a' <= c <= 'z') || ('A' <= c <= 'Z')
  }

  predicate IsAsciiDigit(c: char) {
    '0' <= c <= '9'
  }

  predicate IsAsciiAlnum(c: char) {
    IsAsciiLetter(c) || IsAsciiDigit(c)
  }

  /** The character sets the original code strips or checks whole strings
      against. */
  datatype CharClass = JsSpace | PySpace | Only(c: char) | Digit

  predicate InClass(cls: CharClass, c: char) {
    match cls
    case JsSpace => IsJsSpace(c)
    case PySpace => IsPySpace(c)
    case Only(d) => c == d
    case Digit => IsAsciiDigit(c)
  }

  /** Every character of `s` is in `cls` (vacuously true of ""). */
  predicate All(s: string, cls: CharClass) {
    forall i :: 0 <= i < |s| ==> InClass(cls, s[i])
  }

  // ---------------------------------------------------------------------------
  // Trimming
  // ---------------------------------------------------------------------------

  /** `s` without its leading characters in `cls`. */
  function StripLeft(s: string, cls: CharClass): (r: string)
    ensures |r| <= |s| && r == s[|s| - |r|..]
    ensures r == [] || !InClass(cls, r[0])
    ensures All(s[..|s| - |r|], cls)
    decreases |s|
  {
    if |s| > 0 && InClass(cls, s[0]) then
      var s' := s[1..];
      var r := StripLeft(s', cls);
      assert s'[|s'| - |r|..] == s[|s| - |r|..];
      assert s[..|s| - |r|] == [s[0]] + s'[..|s'| - |r|];
      r
    else s
  }

  /** `s` without its trailing characters in `cls`. */
  function StripRight(s: string, cls: CharClass): (r: string)
    ensures |r| <= |s| && r == s[..|r|]
    ensures r == [] || !InClass(cls, r[|r| - 1])
    ensures All(s[|r|..], cls)
    decreases |s|
  {
    if |s| > 0 && InClass(cls, s[|s| - 1]) then
      var s' := s[..|s| - 1];
      var r := StripRight(s', cls);
      assert s'[..|r|] == s[..|r|];
      assert s[|r|..] == s'[|r|..] + [s[|s| - 1]];
      r
    else s
  }

  /** `s` without leading and trailing characters in `cls`: JavaScript `trim()`
      with `JsSpace`, Python `strip()` with `PySpace`, Python `strip('"')` with
      `Only('"')`. The result neither starts nor ends with a character of `cls`,
      and it is empty exactly when every character of `s` is in `cls`;
      `StripIsSlice` shows it is what remains of `s` once such characters are
      cut from both ends. */
  function Strip(s: string, cls: CharClass): (r: string)
    ensures |r| <= |s|
    ensures r == [] || (!InClass(cls, r[0]) && !InClass(cls, r[|r| - 1]))
    ensures r == [] <==> All(s, cls)
  {
    var left := StripLeft(s, cls);
    var r := StripRight(left, cls);
    assert r == [] ==> s == s[..|s| - |left|];
    assert r != [] ==> r[0] == s[|s| - |left|];
    r
  }

  /** The stripped string is a contiguous slice of `s` and everything cut off
      on either side is in `cls`. */
  lemma {:induction false} StripIsSlice(s: string, cls: CharClass)
    ensures var r := Strip(s, cls);
            exists lo :: 0 <= lo <= lo + |r| <= |s| && r == s[lo..lo + |r|]
                         && All(s[..lo], cls) && All(s[lo + |r|..], cls)
  {
    var left := StripLeft(s, cls);
    var r := StripRight(left, cls);
    var lo := |s| - |left|;
    assert Strip(s, cls) == r;
    assert r == s[lo..lo + |r|];
    assert All(s[..lo], cls);
    assert All(s[lo + |r|..], cls) by {
      assert s[lo + |r|..] == left[|r|..];
    }
  }

  /** Stripping only removes characters. */
  lemma {:induction false} StripKeepsChars(s: string, cls: CharClass)
    ensures forall c :: c in Strip(s, cls) ==> c in s
  {
    var left := StripLeft(s, cls);
    var r := StripRight(left, cls);
    assert Strip(s, cls) == r;
    forall c | c in r
      ensures c in s
    {
      var k :| 0 <= k < |r| && r[k] == c;
      assert left[k] == c;
      assert s[|s| - |left| + k] == c;
    }
  }

  /** A string that neither starts nor ends with a character of `cls` is left
      as it is. */
  lemma {:induction false} StripUnchanged(s: string, cls: CharClass)
    requires s == [] || (!InClass(cls, s[0]) && !InClass(cls, s[|s| - 1]))
    ensures Strip(s, cls) == s
  {
    assert StripLeft(s, cls) == s;
  }

  /** JavaScript `s.trim()`. */
  function Trim(s: string): string {
    Strip(s, JsSpace)
  }

  // ---------------------------------------------------------------------------
  // Searching
  // ---------------------------------------------------------------------------

  /** JavaScript `s.startsWith(p)`. */
  predicate StartsWith(s: string, p: string) {
    |p| <= |s| && s[..|p|] == p
  }

  /** `sub` occurs in `s` starting at position `i`. */
  predicate OccursAt(s: string, sub: string, i: int) {
    0 <= i <= |s| - |sub| && s[i..i + |sub|] == sub
  }

  /** JavaScript `s.includes(sub)`: `sub` occurs at some position of `s`. */
  predicate Contains(s: string, sub: string) {
    exists i :: 0 <= i <= |s| - |sub| && OccursAt(s, sub, i)
  }

  /** An occurrence of `a + sub + b` contains an occurrence of `sub`. */
  lemma ContainsInner(s: string, a: string, sub: string, b: string)
    requires Contains(s, a + sub + b)
    ensures Contains(s, sub)
  {
    var w := a + sub + b;
    var i :| 0 <= i <= |s| - |w| && OccursAt(s, w, i);
    assert |w| == |a| + |sub| + |b|;
    assert s[i..i + |w|] == w;
    forall k | 0 <= k < |sub|
      ensures s[i + |a| + k] == sub[k]
    {
      assert s[i + |a| + k] == s[i..i + |w|][|a| + k] == w[|a| + k];
    }
    assert s[i + |a|..i + |a| + |sub|] == sub;
    assert OccursAt(s, sub, i + |a|);
  }

  /** The position of the first occurrence of `c` in `s`. */
  function IndexOf(s: string, c: char): (k: nat)
    requires c in s
    ensures k < |s| && s[k] == c && c !in s[..k]
  {
    if s[0] == c then 0 else 1 + IndexOf(s[1..], c)
  }

  /** The number of occurrences of `c` in `s`. */
  function Count(s: string, c: char): nat {
    if |s| == 0 then 0 else (if s[0] == c then 1 else 0) + Count(s[1..], c)
  }

  lemma {:induction false} CountAppend(a: string, b: string, c: char)
    ensures Count(a + b, c) == Count(a, c) + Count(b, c)
    decreases |a|
  {
    if |a| > 0 {
      assert (a + b)[1..] == a[1..] + b;
      CountAppend(a[1..], b, c);
    } else {
      assert a + b == b;
    }
  }

  lemma {:induction false} CountAbsent(s: string, c: char)
    requires c !in s
    ensures Count(s, c) == 0
    decreases |s|
  {
    if |s| > 0 {
      CountAbsent(s[1..], c);
    }
  }

  // ---------------------------------------------------------------------------
  // Splitting and joining
  // ---------------------------------------------------------------------------

  /** JavaScript `parts.join(sep)` / Python `sep.join(parts)`. */
  function Join(parts: seq<string>, sep: string): string
    decreases |parts|
  {
    if |parts| == 0 then ""
    else if |parts| == 1 then parts[0]
    else parts[0] + sep + Join(parts[1..], sep)
  }

  /** JavaScript `s.split(sep)` / Python `s.split(sep)` for a one-character
      separator: the fields between consecutive separators, in order. There is
      one field more than there are separators and no field contains the
      separator; `JoinSplit` shows that joining the fields gives `s` back. */
  function Split(s: string, sep: char): (r: seq<string>)
    ensures |r| == Count(s, sep) + 1
    ensures forall i :: 0 <= i < |r| ==> sep !in r[i]
    decreases |s|
  {
    if sep in s then
      var k := IndexOf(s, sep);
      var rest := Split(s[k + 1..], sep);
      var r := [s[..k]] + rest;
      assert r[1..] == rest;
      assert s == s[..k] + ([sep] + s[k + 1..]);
      CountAbsent(s[..k], sep);
      CountAppend(s[..k], [sep] + s[k + 1..], sep);
      CountAppend([sep], s[k + 1..], sep);
      assert Count([sep], sep) == 1 + Count([], sep);
      r
    else
      CountAbsent(s, sep);
      [s]
  }

  /** Joining the fields of `s` with the separator gives `s` back. */
  lemma {:induction false} JoinSplit(s: string, sep: char)
    ensures Join(Split(s, sep), [sep]) == s
    decreases |s|
  {
    if sep in s {
      var k := IndexOf(s, sep);
      var rest := Split(s[k + 1..], sep);
      JoinSplit(s[k + 1..], sep);
      assert Split(s, sep) == [s[..k]] + rest;
      assert ([s[..k]] + rest)[1..] == rest;
      assert s == s[..k] + [sep] + s[k + 1..];
    }
  }

  /** Splitting undoes joining, as long as no part contains the separator. */
  lemma {:induction false} SplitOfJoin(parts: seq<string>, sep: char)
    requires |parts| >= 1
    requires forall i :: 0 <= i < |parts| ==> sep !in parts[i]
    ensures Split(Join(parts, [sep]), sep) == parts
    decreases |parts|
  {
    if |parts| > 1 {
      var s := Join(parts, [sep]);
      var tail := Join(parts[1..], [sep]);
      assert s == parts[0] + [sep] + tail;
      var k := |parts[0]|;
      assert s[k] == sep;
      assert s[..k] == parts[0];
      assert IndexOf(s, sep) == k;
      assert s[k + 1..] == tail;
      SplitOfJoin(parts[1..], sep);
      assert Split(s, sep) == [parts[0]] + parts[1..];
    }
  }

  /** The field before the first `sep` (the whole string when there is none):
      JavaScript `s.split(sep)[0]`. */
  function FirstField(s: string, sep: char): (r: string)
    ensures sep !in r && StartsWith(s, r)
    ensures sep in s ==> |r| < |s| && s[|r|] == sep
  {
    var fields := Split(s, sep);
    if sep in s then
      var k := IndexOf(s, sep);
      assert fields[0] == s[..k];
      fields[0]
    else
      assert fields == [s];
      fields[0]
  }

  /** The field after the last `sep` (the whole string when there is none):
      JavaScript `s.split(sep).pop()`. It is the longest suffix of `s` without a
      separator. */
  function LastField(s: string, sep: char): (r: string)
    ensures sep !in r && |r| <= |s| && r == s[|s| - |r|..]
    ensures |r| < |s| ==> s[|s| - |r| - 1] == sep
    decreases |s|
  {
    if |s| == 0 || s[|s| - 1] == sep then []
    else
      var r := LastField(s[..|s| - 1], sep) + [s[|s| - 1]];
      assert s == s[..|s| - 1] + [s[|s| - 1]];
      r
  }

  /** The last field of `a + [sep] + b` is `b` whenever `b` has no separator. */
  lemma {:induction false} LastFieldAfterSeparator(a: string, sep: char, b: string)
    requires sep !in b
    ensures LastField(a + [sep] + b, sep) == b
    decreases |b|
  {
    var s := a + [sep] + b;
    if |b| > 0 {
      var b' := b[..|b| - 1];
      var last := b[|b| - 1];
      assert s[|s| - 1] == last && last != sep;
      assert s[..|s| - 1] == a + [sep] + b';
      LastFieldAfterSeparator(a, sep, b');
      assert LastField(s, sep) == b' + [last];
      assert b == b' + [last];
    } else {
      assert s[|s| - 1] == sep;
    }
  }

  // ---------------------------------------------------------------------------
  // Decimal numerals
  // ---------------------------------------------------------------------------

  function DigitChar(d: nat): (c: char)
    requires d < 10
    ensures IsAsciiDigit(c) && c as int - '0' as int == d
  {
    "0123456789"[d]
  }

  /** The decimal rendering of `n`, as a template string shows a non-negative
      integer. */
  function DecimalString(n: nat): (r: string)
    ensures |r| >= 1 && All(r, Digit)
    decreases n
  {
    if n < 10 then [DigitChar(n)] else DecimalString(n / 10) + [DigitChar(n % 10)]
  }

  /** The value of a string of ASCII digits read as a decimal numeral. */
  function DigitsValue(s: string): nat
    requires All(s, Digit)
    decreases |s|
  {
    if |s| == 0 then 0
    else DigitsValue(s[..|s| - 1]) * 10 + (s[|s| - 1] as int - '0' as int)
  }

  /** Reading back the rendering of `n` gives `n`. */
  lemma {:induction false} DecimalRoundTrip(n: nat)
    ensures DigitsValue(DecimalString(n)) == n
    decreases n
  {
    if n >= 10 {
      var s := DecimalString(n);
      assert s[..|s| - 1] == DecimalString(n / 10);
      DecimalRoundTrip(n / 10);
    }
  }
}

=== FILE: timeline.dfy ===
/** The analysis timeline: the event log reduced to one row per whole second
    (the row of the highest combined score in that second), the state filter
    applied before that reduction, the "latest 50 seconds" window, and the
    summary count of non-NORMAL events. */
module Timeline {
  import opened Wrappers
  import opened Monitoring
  import StateIndicator

  // ---------------------------------------------------------------------------
  // Per-event quantities
  // ---------------------------------------------------------------------------

  /** The guard `!event.timestamp || typeof event.timestamp !== 'number'` lets
      an event through only when its timestamp is a number other than 0 and NaN. */
  predicate ValidStamp(t: Stamp) {
    t.Num? && t.value != 0.0
  }

  /** The event has a valid timestamp whose floor is `sec`. */
  predicate InSecond(e: Observation, sec: int) {
    ValidStamp(e.timestamp) && e.timestamp.value.Floor == sec
  }

  /** `hazard + fire + smoke`, where a missing score object counts as all zeros. */
  function TotalScore(e: Observation): real {
    match e.scores
    case None => 0.0
    case Some(s) => s.hazard + s.fire + s.smoke
  }

  /** One row of the reduced timeline: the chosen event, its index in the list
      that was reduced, its combined score, and its whole second. */
  datatype Bucket = Bucket(event: Observation, originalIndex: nat, totalScore: real, second: int)

  // ---------------------------------------------------------------------------
  // What a row must be
  // ---------------------------------------------------------------------------

  /** `b` is the row for its second among `events[..n]`: it is the event at
      `b.originalIndex`, which lies in that second; no event of that second has a
      larger combined score; and every earlier event of that second has a strictly
      smaller one (ties go to the first seen). */
  ghost predicate IsBest(events: seq<Observation>, n: nat, b: Bucket)
    requires n <= |events|
  {
    && b.originalIndex < n
    && b.event == events[b.originalIndex]
    && InSecond(b.event, b.second)
    && b.totalScore == TotalScore(b.event)
    && (forall j :: 0 <= j < n && InSecond(events[j], b.second) ==> TotalScore(events[j]) <= b.totalScore)
    && (forall j :: 0 <= j < b.originalIndex && InSecond(events[j], b.second) ==> TotalScore(events[j]) < b.totalScore)
  }

  ghost predicate DistinctSeconds(xs: seq<Bucket>) {
    forall a, b :: 0 <= a < b < |xs| ==> xs[a].second != xs[b].second
  }

  ghost predicate StrictlyAscending(xs: seq<Bucket>) {
    forall a, b :: 0 <= a < b < |xs| ==> xs[a].second < xs[b].second
  }

  /** The seconds that have a row in `xs`. */
  ghost function SecondsOf(xs: seq<Bucket>): set<int> {
    set k | 0 <= k < |xs| :: xs[k].second
  }

  /** Every valid event of `events[..n]` has a row for its second in `acc`. */
  ghost predicate Covers(events: seq<Observation>, n: nat, acc: seq<Bucket>)
    requires n <= |events|
  {
    forall j :: 0 <= j < n && ValidStamp(events[j].timestamp) ==> events[j].timestamp.value.Floor in SecondsOf(acc)
  }

  ghost predicate AllBest(events: seq<Observation>, n: nat, acc: seq<Bucket>)
    requires n <= |events|
  {
    forall k :: 0 <= k < |acc| ==> IsBest(events, n, acc[k])
  }

  /** `acc` holds exactly one correct row for every second that some valid event
      of `events[..n]` falls in, and no other row. */
  ghost predicate Summarises(events: seq<Observation>, n: nat, acc: seq<Bucket>)
    requires n <= |events|
  {
    DistinctSeconds(acc) && AllBest(events, n, acc) && Covers(events, n, acc)
  }

  // ---------------------------------------------------------------------------
  // The reduction, as the source performs it
  // ---------------------------------------------------------------------------

  /** Position of the row for second `sec` in `acc`, or `|acc|` when there is none
      (`secondsMap.has` / `secondsMap.get`). */
  function FindSecond(acc: seq<Bucket>, sec: int): (k: nat)
    ensures k <= |acc|
    ensures k < |acc| ==> acc[k].second == sec
    ensures k == |acc| ==> forall j :: 0 <= j < |acc| ==> acc[j].second != sec
  {
    FindFrom(acc, sec, 0)
  }

  function FindFrom(acc: seq<Bucket>, sec: int, i: nat): (k: nat)
    requires i <= |acc|
    ensures i <= k <= |acc|
    ensures k < |acc| ==> acc[k].second == sec
    ensures k == |acc| ==> forall j :: i <= j < |acc| ==> acc[j].second != sec
    decreases |acc| - i
  {
    if i == |acc| then i
    else if acc[i].second == sec then i
    else FindFrom(acc, sec, i + 1)
  }

  /** One step of the `forEach`: skip an invalid timestamp; otherwise store the
      event under its second when the second is new or its combined score is
      strictly larger than the stored one. A JavaScript `Map` keeps a key's
      original insertion position when its value is replaced. */
  function Upsert(acc: seq<Bucket>, e: Observation, index: nat): seq<Bucket> {
    if !ValidStamp(e.timestamp) then acc
    else
      var sec := e.timestamp.value.Floor;
      var total := TotalScore(e);
      var k := FindSecond(acc, sec);
      if k == |acc| then acc + [Bucket(e, index, total, sec)]
      else if total > acc[k].totalScore then acc[k := Bucket(e, index, total, sec)]
      else acc
  }

  /** The map's values, in insertion order, after the first `n` events. */
  function Collect(events: seq<Observation>, n: nat): seq<Bucket>
    requires n <= |events|
    decreases n
  {
    if n == 0 then [] else Upsert(Collect(events, n - 1), events[n - 1], n - 1)
  }

  // A row stays correct when the next event lies in another second ...
  lemma BestOtherSecond(events: seq<Observation>, n: nat, b: Bucket)
    requires n < |events| && IsBest(events, n, b) && !InSecond(events[n], b.second)
    ensures IsBest(events, n + 1, b)
  {
  }

  // ... or in its second without a larger combined score.
  lemma BestNotBeaten(events: seq<Observation>, n: nat, b: Bucket)
    requires n < |events| && IsBest(events, n, b)
    requires InSecond(events[n], b.second) && TotalScore(events[n]) <= b.totalScore
    ensures IsBest(events, n + 1, b)
  {
  }

  // The first event of a second is its row.
  lemma BestFirstOfSecond(events: seq<Observation>, n: nat, sec: int)
    requires n < |events| && InSecond(events[n], sec)
    requires forall j :: 0 <= j < n ==> !InSecond(events[j], sec)
    ensures IsBest(events, n + 1, Bucket(events[n], n, TotalScore(events[n]), sec))
  {
  }

  // An event that beats its second's row replaces it.
  lemma BestBeaten(events: seq<Observation>, n: nat, b: Bucket)
    requires n < |events| && IsBest(events, n, b)
    requires InSecond(events[n], b.second) && TotalScore(events[n]) > b.totalScore
    ensures IsBest(events, n + 1, Bucket(events[n], n, TotalScore(events[n]), b.second))
  {
  }

  lemma UpsertStep(events: seq<Observation>, n: nat, acc: seq<Bucket>)
    requires n < |events|
    requires Summarises(events, n, acc)
    ensures Summarises(events, n + 1, Upsert(acc, events[n], n))
  {
    var e := events[n];
    if !ValidStamp(e.timestamp) {
      forall k | 0 <= k < |acc| ensures IsBest(events, n + 1, acc[k]) {
        BestOtherSecond(events, n, acc[k]);
      }
    } else {
      var sec := e.timestamp.value.Floor;
      var k := FindSecond(acc, sec);
      if k == |acc| {
        UpsertNewSecond(events, n, acc);
      } else if TotalScore(e) > acc[k].totalScore {
        UpsertReplace(events, n, acc, k);
      } else {
        forall m | 0 <= m < |acc| ensures IsBest(events, n + 1, acc[m]) {
          if m == k {
            BestNotBeaten(events, n, acc[m]);
          } else {
            BestOtherSecond(events, n, acc[m]);
          }
        }
      }
    }
  }

  lemma UpsertNewSecond(events: seq<Observation>, n: nat, acc: seq<Bucket>)
    requires n < |events|
    requires Summarises(events, n, acc)
    requires ValidStamp(events[n].timestamp)
    requires FindSecond(acc, events[n].timestamp.value.Floor) == |acc|
    ensures Summarises(events, n + 1, Upsert(acc, events[n], n))
  {
    var e := events[n];
    var sec := e.timestamp.value.Floor;
    var nb := Bucket(e, n, TotalScore(e), sec);
    var acc' := acc + [nb];
    assert Upsert(acc, e, n) == acc';
    assert sec !in SecondsOf(acc);
    assert SecondsOf(acc') == SecondsOf(acc) + {sec} by {
      assert forall k :: 0 <= k < |acc| ==> acc'[k] == acc[k];
      assert acc'[|acc|] == nb;
    }
    forall m | 0 <= m < |acc| ensures IsBest(events, n + 1, acc'[m]) {
      assert acc'[m] == acc[m];
      BestOtherSecond(events, n, acc[m]);
    }
    BestFirstOfSecond(events, n, sec);
    assert acc'[|acc|] == nb;
  }

  lemma UpsertReplace(events: seq<Observation>, n: nat, acc: seq<Bucket>, k: nat)
    requires n < |events|
    requires Summarises(events, n, acc)
    requires ValidStamp(events[n].timestamp)
    requires k == FindSecond(acc, events[n].timestamp.value.Floor) && k < |acc|
    requires TotalScore(events[n]) > acc[k].totalScore
    ensures Summarises(events, n + 1, Upsert(acc, events[n], n))
  {
    var e := events[n];
    var sec := e.timestamp.value.Floor;
    var nb := Bucket(e, n, TotalScore(e), sec);
    var acc' := acc[k := nb];
    assert Upsert(acc, e, n) == acc';
    assert SecondsOf(acc') == SecondsOf(acc) by {
      assert forall m :: 0 <= m < |acc| ==> acc'[m].second == acc[m].second;
    }
    forall m | 0 <= m < |acc| ensures IsBest(events, n + 1, acc'[m]) {
      if m == k {
        BestBeaten(events, n, acc[k]);
      } else {
        BestOtherSecond(events, n, acc[m]);
      }
    }
  }

  lemma CollectStep(events: seq<Observation>, n: nat)
    requires 0 < n <= |events|
    requires Summarises(events, n - 1, Collect(events, n - 1))
    ensures Summarises(events, n, Collect(events, n))
  {
    var acc := Collect(events, n - 1);
    assert Collect(events, n) == Upsert(acc, events[n - 1], n - 1);
    UpsertStep(events, n - 1, acc);
  }

  /** The reduction keeps `Summarises` from the empty prefix on. */
  lemma {:induction false} CollectSummarises(events: seq<Observation>, n: nat)
    requires n <= |events|
    ensures Summarises(events, n, Collect(events, n))
    decreases n
  {
    if n > 0 {
      CollectSummarises(events, n - 1);
      CollectStep(events, n);
    }
  }

  // ---------------------------------------------------------------------------
  // Ordering the rows by second (`Array.prototype.sort`, stable)
  // ---------------------------------------------------------------------------

  function InsertBySecond(b: Bucket, xs: seq<Bucket>): (r: seq<Bucket>)
    ensures |r| == |xs| + 1
    ensures multiset(r) == multiset(xs) + multiset{b}
    ensures forall x :: x in r <==> x == b || x in xs
    ensures StrictlyAscending(xs) && (forall k :: 0 <= k < |xs| ==> xs[k].second != b.second)
            ==> StrictlyAscending(r)
    decreases |xs|
  {
    if |xs| == 0 || b.second <= xs[0].second then [b] + xs
    else
      var rest := InsertBySecond(b, xs[1..]);
      InsertBehind(b, xs, rest);
      [xs[0]] + rest
  }

  /** The step of InsertBySecond that passes the head: `rest` is `b` inserted
      into the tail, and the head goes in front of it. */
  lemma InsertBehind(b: Bucket, xs: seq<Bucket>, rest: seq<Bucket>)
    requires |xs| > 0 && xs[0].second < b.second
    requires multiset(rest) == multiset(xs[1..]) + multiset{b}
    requires StrictlyAscending(xs[1..]) && (forall k :: 0 <= k < |xs| - 1 ==> xs[1..][k].second != b.second)
             ==> StrictlyAscending(rest)
    ensures multiset([xs[0]] + rest) == multiset(xs) + multiset{b}
    ensures StrictlyAscending(xs) && (forall k :: 0 <= k < |xs| ==> xs[k].second != b.second)
            ==> StrictlyAscending([xs[0]] + rest)
  {
    assert xs == [xs[0]] + xs[1..];
    if StrictlyAscending(xs) && (forall k :: 0 <= k < |xs| ==> xs[k].second != b.second) {
      forall k | 0 <= k < |rest| ensures xs[0].second < rest[k].second {
        assert rest[k] in multiset(rest);
        assert rest[k] == b || rest[k] in xs[1..];
      }
    }
  }

  function SortBySecond(xs: seq<Bucket>): (r: seq<Bucket>)
    ensures |r| == |xs|
    ensures multiset(r) == multiset(xs)
    ensures forall x :: x in r <==> x in xs
    ensures DistinctSeconds(xs) ==> StrictlyAscending(r)
    decreases |xs|
  {
    if |xs| == 0 then []
    else
      var rest := SortBySecond(xs[1..]);
      assert forall x :: x in xs <==> x == xs[0] || x in xs[1..] by {
        assert xs == [xs[0]] + xs[1..];
      }
      assert DistinctSeconds(xs) ==>
               (DistinctSeconds(xs[1..]) && forall k :: 0 <= k < |rest| ==> rest[k].second != xs[0].second) by {
        if DistinctSeconds(xs) {
          forall k | 0 <= k < |rest| ensures rest[k].second != xs[0].second {
            assert rest[k] in xs[1..];
          }
        }
      }
      assert multiset(xs) == multiset(xs[1..]) + multiset{xs[0]} by {
        assert xs == [xs[0]] + xs[1..];
      }
      InsertBySecond(xs[0], rest)
  }

  // ---------------------------------------------------------------------------
  // getSecondBasedEvents
  // ---------------------------------------------------------------------------

  /** The reduced timeline: rows strictly ascending by second (so at most one
      per second); each row is the first event with the largest combined score
      in its second, carrying its index in `events`; and every second in which
      some valid event falls has a row. */
  function SecondBasedEvents(events: seq<Observation>): (r: seq<Bucket>)
    ensures StrictlyAscending(r)
    ensures forall k :: 0 <= k < |r| ==> IsBest(events, |events|, r[k])
    ensures forall j :: 0 <= j < |events| && ValidStamp(events[j].timestamp) ==>
              exists k :: 0 <= k < |r| && r[k].second == events[j].timestamp.value.Floor
  {
    var acc := Collect(events, |events|);
    CollectSummarises(events, |events|);
    var r := SortBySecond(acc);
    SortedSummary(events, acc, r);
    r
  }

  lemma SortedSummary(events: seq<Observation>, acc: seq<Bucket>, r: seq<Bucket>)
    requires Summarises(events, |events|, acc)
    requires forall x :: x in r <==> x in acc
    ensures forall k :: 0 <= k < |r| ==> IsBest(events, |events|, r[k])
    ensures forall j :: 0 <= j < |events| && ValidStamp(events[j].timestamp) ==>
              exists k :: 0 <= k < |r| && r[k].second == events[j].timestamp.value.Floor
  {
    forall k | 0 <= k < |r| ensures IsBest(events, |events|, r[k]) {
      assert r[k] in acc;
    }
    forall j | 0 <= j < |events| && ValidStamp(events[j].timestamp)
      ensures exists k :: 0 <= k < |r| && r[k].second == events[j].timestamp.value.Floor
    {
      var sec := events[j].timestamp.value.Floor;
      assert sec in SecondsOf(acc);
      var q :| 0 <= q < |acc| && acc[q].second == sec;
      assert acc[q] in r;
    }
  }

  /** Events with an invalid timestamp (not a number, NaN, or 0) never give a row. */
  lemma InvalidEventsDropped(events: seq<Observation>, k: nat)
    requires k < |SecondBasedEvents(events)|
    ensures ValidStamp(events[SecondBasedEvents(events)[k].originalIndex].timestamp)
  {
    assert IsBest(events, |events|, SecondBasedEvents(events)[k]);
  }

  // ---------------------------------------------------------------------------
  // State filter, window, summary
  // ---------------------------------------------------------------------------

  /** `events.filter(p)`: the events satisfying `p`, in their original order. */
  function Keep(events: seq<Observation>, p: Observation -> bool): (r: seq<Observation>)
    ensures |r| <= |events|
    ensures forall x :: x in r <==> x in events && p(x)
    decreases |events|
  {
    if |events| == 0 then []
    else
      assert forall x :: x in events <==> x == events[0] || x in events[1..] by {
        assert events == [events[0]] + events[1..];
      }
      (if p(events[0]) then [events[0]] else []) + Keep(events[1..], p)
  }

  /** Keep distributes over concatenation: together with KeepSingle and
      `Keep([], p) == []` this fixes the result completely, so the kept events
      keep their order and their multiplicity. */
  lemma {:induction false} KeepAppend(a: seq<Observation>, b: seq<Observation>, p: Observation -> bool)
    ensures Keep(a + b, p) == Keep(a, p) + Keep(b, p)
    decreases |a|
  {
    if |a| == 0 {
      assert a + b == b;
    } else {
      assert (a + b)[0] == a[0];
      assert (a + b)[1..] == a[1..] + b;
      KeepAppend(a[1..], b, p);
    }
  }

  /** One event is kept exactly when it satisfies the test. */
  lemma KeepSingle(x: Observation, p: Observation -> bool)
    ensures Keep([x], p) == if p(x) then [x] else []
  {
    assert [x][1..] == [];
  }

  /** The list the timeline reduces: everything for 'ALL', otherwise only the
      events reported with exactly the selected state. */
  function FilterByState(events: seq<Observation>, filter: string): (r: seq<Observation>)
    ensures filter == "ALL" ==> r == events
    ensures filter != "ALL" ==> forall x :: x in r <==> x in events && x.state == filter
  {
    if filter == "ALL" then events else Keep(events, (e: Observation) => e.state == filter)
  }

  /** The state filter works event by event: filtering a concatenation
      filters each part, and one event survives exactly when it has the
      selected state (or the filter is 'ALL'). So the filtered list is the
      log's matching events, in order, each as often as it occurs. */
  lemma FilterByStateAppend(a: seq<Observation>, b: seq<Observation>, filter: string, x: Observation)
    ensures FilterByState(a + b, filter) == FilterByState(a, filter) + FilterByState(b, filter)
    ensures FilterByState([x], filter) == if filter == "ALL" || x.state == filter then [x] else []
  {
    if filter != "ALL" {
      KeepAppend(a, b, (e: Observation) => e.state == filter);
      KeepSingle(x, (e: Observation) => e.state == filter);
    }
  }

  const WindowSize: nat := 50

  /** The rows on screen: all of them when showing everything, otherwise the
      last `min(50, |rows|)` rows (`slice(-50)`). */
  function DisplayEvents(rows: seq<Bucket>, showAll: bool): (r: seq<Bucket>)
    ensures showAll ==> r == rows
    ensures !showAll ==> |r| == (if |rows| < WindowSize then |rows| else WindowSize)
    ensures |r| <= |rows| && r == rows[|rows| - |r|..]
  {
    if showAll || |rows| <= WindowSize then rows else rows[|rows| - WindowSize..]
  }

  /** The "showing the latest N seconds" notice. */
  function MoreNotice(rows: seq<Bucket>, showAll: bool): bool {
    !showAll && |rows| > WindowSize
  }

  /** The notice is shown exactly when rows are hidden from the screen. */
  lemma MoreNoticeIffRowsHidden(rows: seq<Bucket>, showAll: bool)
    ensures MoreNotice(rows, showAll) <==> |DisplayEvents(rows, showAll)| < |rows|
  {
  }

  /** The number of events whose reported state is not NORMAL. */
  function DangerCount(events: seq<Observation>): nat {
    |Keep(events, (e: Observation) => e.state != NORMAL)|
  }

  lemma {:induction false} KeepSplits(events: seq<Observation>, p: Observation -> bool, q: Observation -> bool)
    requires forall x :: q(x) <==> !p(x)
    ensures |Keep(events, p)| + |Keep(events, q)| == |events|
    decreases |events|
  {
    if |events| > 0 {
      KeepSplits(events[1..], p, q);
    }
  }

  /** Every event is counted either as dangerous or under the NORMAL filter. */
  lemma DangerCountComplementsNormal(events: seq<Observation>)
    ensures DangerCount(events) + |FilterByState(events, NORMAL)| == |events|
  {
    KeepSplits(events, (e: Observation) => e.state != NORMAL, (e: Observation) => e.state == NORMAL);
  }

  /** `getStateColor`: the same colour the state panel uses for the state. */
  function GetStateColor(state: string): (r: string)
    ensures r == StateIndicator.GetStateInfo(state).color
  {
    if state == NORMAL then "#28a745"
    else if state == PRE_FIRE then "#ffc107"
    else if state == SMOKE_DETECTED then "#fd7e14"
    else if state == FIRE_GROWING then "#dc3545"
    else if state == CALL_119 then "#ff3333"
    else "#6c757d"
  }

  /** `getStateText`: the same label the state panel uses for the state. */
  function GetStateText(state: string): (r: string)
    ensures r == StateIndicator.GetStateInfo(state).text
  {
    if state == NORMAL then "정상"
    else if state == PRE_FIRE then "화재 전조"
    else if state == SMOKE_DETECTED then "연기 감지"
    else if state == FIRE_GROWING then "화재 확산"
    else if state == CALL_119 then "119 호출"
    else "분석 중"
  }

  // ---------------------------------------------------------------------------
  // The whole table
  // ---------------------------------------------------------------------------

  /** The rendered timeline: the "no analysis data yet" placeholder, which
      shows no table and no counters, or the table with its summary. */
  datatype TimelineView =
    | NoData
    | TimelineView(rows: seq<Bucket>, allRows: seq<Bucket>, moreNotice: bool,
                   totalFrames: nat, dangerCount: nat)

  /** What the timeline renders for an event log, a state filter and the
      show-all toggle. The filter is applied before the reduction, so with a
      filter other than 'ALL' every row has the selected state and its
      `originalIndex` points into the filtered list; the frame count and the
      danger count are taken over the unfiltered log. The summary reads the
      fire and smoke score of every event without a guard, so the page
      renders only a log whose events all carry scores. An empty log shows
      the placeholder instead, whatever the filter. */
  function View(events: seq<Observation>, filter: string, showAll: bool): (v: TimelineView)
    requires forall k :: 0 <= k < |events| ==> events[k].scores.Some?
    ensures v.NoData? <==> events == []
    ensures v.TimelineView? ==> v.allRows == SecondBasedEvents(FilterByState(events, filter))
    ensures v.TimelineView? && filter != "ALL" ==>
              forall k :: 0 <= k < |v.allRows| ==> v.allRows[k].event.state == filter
    ensures v.TimelineView? ==> v.rows == DisplayEvents(v.allRows, showAll)
    ensures v.TimelineView? ==> (v.moreNotice <==> |v.rows| < |v.allRows|)
    ensures v.TimelineView? ==> v.totalFrames == |events| && v.dangerCount + |FilterByState(events, NORMAL)| == |events|
  {
    if events == [] then NoData else
    var filtered := FilterByState(events, filter);
    var all := SecondBasedEvents(filtered);
    assert filter != "ALL" ==> forall k :: 0 <= k < |all| ==> all[k].event.state == filter by {
      if filter != "ALL" {
        forall k | 0 <= k < |all| ensures all[k].event.state == filter {
          assert IsBest(filtered, |filtered|, all[k]);
          assert all[k].event in filtered;
        }
      }
    }
    MoreNoticeIffRowsHidden(all, showAll);
    DangerCountComplementsNormal(events);
    TimelineView(DisplayEvents(all, showAll), all, MoreNotice(all, showAll), |events|, DangerCount(events))
  }
}

=== FILE: validators.dfy ===
/** The input rules the account pages share: the password rule (8 to 16
    characters from letters, digits and `@$!%*?&`, with at least one of each
    kind), the user-id rule (4 to 12 ASCII letters and digits), the e-mail shape
    `^[^\s@]+@[^\s@]+\.[^\s@]+$`, and password confirmation. */
module Validators {
  import opened Text

  // ---------------------------------------------------------------------------
  // Password
  // ---------------------------------------------------------------------------

  /** The special characters of the password rule. */
  predicate IsSpecial(c: char) {
    c == '@' || c == '$' || c == '!' || c == '%' || c == '*' || c == '?' || c == '&'
  }

  predicate IsPasswordChar(c: char) {
    IsAsciiLetter(c) || IsAsciiDigit(c) || IsSpecial(c)
  }

  /** `/^(?=.*[a-zA-Z])(?=.*\d)(?=.*[@$!%*?&])[A-Za-z\d@$!%*?&]{8,16}$/`. */
  predicate PasswordRule(p: string) {
    && 8 <= |p| <= 16
    && (forall i :: 0 <= i < |p| ==> IsPasswordChar(p[i]))
    && (exists i :: 0 <= i < |p| && IsAsciiLetter(p[i]))
    && (exists i :: 0 <= i < |p| && IsAsciiDigit(p[i]))
    && (exists i :: 0 <= i < |p| && IsSpecial(p[i]))
  }

  /** The password check as a single left-to-right scan: it decides the rule. */
  method CheckPassword(p: string) returns (ok: bool)
    ensures ok <==> PasswordRule(p)
    ensures p == "" ==> !ok
  {
    if |p| < 8 || |p| > 16 {
      return false;
    }
    var letter, digit, special := false, false, false;
    var i := 0;
    while i < |p|
      invariant 0 <= i <= |p|
      invariant forall j :: 0 <= j < i ==> IsPasswordChar(p[j])
      invariant letter <==> exists j :: 0 <= j < i && IsAsciiLetter(p[j])
      invariant digit <==> exists j :: 0 <= j < i && IsAsciiDigit(p[j])
      invariant special <==> exists j :: 0 <= j < i && IsSpecial(p[j])
    {
      var c := p[i];
      if !IsPasswordChar(c) {
        return false;
      }
      letter := letter || IsAsciiLetter(c);
      digit := digit || IsAsciiDigit(c);
      special := special || IsSpecial(c);
      i := i + 1;
    }
    ok := letter && digit && special;
  }

  // ---------------------------------------------------------------------------
  // User id
  // ---------------------------------------------------------------------------

  /** `/^[a-zA-Z0-9]{4,12}$/`. */
  predicate UserIdRule(u: string) {
    4 <= |u| <= 12 && forall i :: 0 <= i < |u| ==> IsAsciiAlnum(u[i])
  }

  /** The user-id check as a scan: it decides the rule. */
  method CheckUserId(u: string) returns (ok: bool)
    ensures ok <==> UserIdRule(u)
  {
    if |u| < 4 || |u| > 12 {
      return false;
    }
    var i := 0;
    while i < |u|
      invariant 0 <= i <= |u|
      invariant forall j :: 0 <= j < i ==> IsAsciiAlnum(u[j])
    {
      if !IsAsciiAlnum(u[i]) {
        return false;
      }
      i := i + 1;
    }
    return true;
  }

  // ---------------------------------------------------------------------------
  // E-mail shape
  // ---------------------------------------------------------------------------

  /** A run of `[^\s@]`: no JavaScript white space and no '@'. */
  predicate Plain(s: string) {
    forall i :: 0 <= i < |s| ==> !IsJsSpace(s[i]) && s[i] != '@'
  }

  /** `/^[^\s@]+@[^\s@]+\.[^\s@]+$/`, read as the regular expression does:
      `s` splits as local part, '@', domain head, '.', domain tail, the three
      parts non-empty runs of `[^\s@]`. */
  predicate EmailPattern(s: string) {
    exists a, k :: 0 < a && a + 1 < k < |s| - 1 && s[a] == '@' && s[k] == '.'
                   && Plain(s[..a]) && Plain(s[a + 1..k]) && Plain(s[k + 1..])
  }

  /** The same shape stated as properties of the whole string: no white space,
      exactly one '@', not at the start, and a '.' in the domain that is
      neither its first nor its last character. */
  predicate EmailShape(s: string) {
    && (forall i :: 0 <= i < |s| ==> !IsJsSpace(s[i]))
    && exists a :: && 0 < a < |s| && s[a] == '@'
                   && (forall i :: 0 <= i < |s| && i != a ==> s[i] != '@')
                   && (exists k :: a + 1 < k < |s| - 1 && s[k] == '.')
  }

  /** The regular expression accepts exactly the strings of that shape. */
  lemma EmailPatternIffShape(s: string)
    ensures EmailPattern(s) <==> EmailShape(s)
  {
    if EmailPattern(s) {
      var a, k :| 0 < a && a + 1 < k < |s| - 1 && s[a] == '@' && s[k] == '.'
                  && Plain(s[..a]) && Plain(s[a + 1..k]) && Plain(s[k + 1..]);
      forall i | 0 <= i < |s| && i != a
        ensures !IsJsSpace(s[i]) && s[i] != '@'
      {
        if i < a {
          assert s[i] == s[..a][i];
        } else if i < k {
          assert s[i] == s[a + 1..k][i - a - 1];
        } else if i > k {
          assert s[i] == s[k + 1..][i - k - 1];
        }
      }
      assert !IsJsSpace(s[a]);
    }
    if EmailShape(s) {
      var a :| && 0 < a < |s| && s[a] == '@'
               && (forall i :: 0 <= i < |s| && i != a ==> s[i] != '@')
               && (exists k :: a + 1 < k < |s| - 1 && s[k] == '.');
      var k :| a + 1 < k < |s| - 1 && s[k] == '.';
      assert Plain(s[..a]);
      assert Plain(s[a + 1..k]);
      assert Plain(s[k + 1..]);
    }
  }

  // ---------------------------------------------------------------------------
  // Confirmation
  // ---------------------------------------------------------------------------

  /** The confirmation effect: both fields filled in and equal. */
  predicate PasswordsMatch(password: string, confirm: string) {
    password != "" && confirm != "" && password == confirm
  }

  /** The validity effect: a non-empty password that satisfies the rule. */
  predicate PasswordValid(password: string) {
    password != "" && PasswordRule(password)
  }

  /** `!s.trim()`: `s` is empty or white space only. */
  predicate Blank(s: string) {
    Trim(s) == ""
  }

  /** A well-formed user id is never blank, so the blank test in front of the
      format test only decides which alert is shown. */
  lemma UserIdNotBlank(u: string)
    requires UserIdRule(u)
    ensures !Blank(u)
  {
    assert !IsJsSpace(u[0]);
  }

  // ---------------------------------------------------------------------------
  // Guards and alerts of the account pages
  // ---------------------------------------------------------------------------

  /** The guard a form submission stops at, or `Proceed` when every guard of
      that page passes and the remote call is made. */
  datatype Gate = BlankEmail | BlankPassword | BadEmail | IdNotChecked | WeakPassword | Mismatch | Proceed

  /** The alerts of the account pages. */
  datatype Alert =
    | EnterId | BadIdFormat | IdTaken | IdAvailable | IdCheckFailed
    | EnterEmail | EnterPassword | BadEmailFormat | CheckIdFirst | WeakPasswordAlert | PasswordMismatch
    | VerificationSent | VerificationResent | ResendRateLimited | AlreadyRegistered
    | VerificationFailed(message: string)
    | PasswordChanged | PasswordResetFailed(message: string)
    | EmailUnconfirmed | LoginSucceeded | BadCredentials | LoginFailed(message: string)
    | ResetLinkSent

  /** The alert a stopping guard shows. */
  function GateAlert(g: Gate): Alert
    requires g != Proceed
  {
    match g
    case BlankEmail => EnterEmail
    case BlankPassword => EnterPassword
    case BadEmail => BadEmailFormat
    case IdNotChecked => CheckIdFirst
    case WeakPassword => WeakPasswordAlert
    case Mismatch => PasswordMismatch
  }

  /** The text the browser shows for an alert. */
  function AlertText(a: Alert): string {
    match a
    case EnterId => "아이디를 입력해주세요."
    case BadIdFormat => "아이디는 영문, 숫자 포함 4~12자로 입력해주세요."
    case IdTaken => "이미 사용 중인 아이디입니다."
    case IdAvailable => "사용 가능한 아이디입니다."
    case IdCheckFailed => "아이디 중복 체크 중 오류가 발생했습니다."
    case EnterEmail => "이메일을 입력해주세요."
    case EnterPassword => "비밀번호를 입력해주세요."
    case BadEmailFormat => "올바른 이메일 형식을 입력해주세요."
    case CheckIdFirst => "아이디 중복 체크를 먼저 해주세요."
    case WeakPasswordAlert => "비밀번호는 영문, 숫자, 특수문자 포함 8~16자로 입력해주세요."
    case PasswordMismatch => "비밀번호가 일치하지 않습니다."
    case VerificationSent => "확인 이메일이 발송되었습니다. 이메일을 확인하고 링크를 클릭해주세요."
    case VerificationResent => "인증이 완료되지 않은 계정입니다.\n인증 이메일을 재발송했습니다. 이메일을 확인해주세요."
    case ResendRateLimited => "이메일 재발송은 1분에 한 번만 가능합니다.\n잠시 후 다시 시도해주세요."
    case AlreadyRegistered => "이미 가입된 이메일입니다."
    case VerificationFailed(m) => "이메일 확인 중 오류가 발생했습니다: " + m
    case PasswordChanged => "비밀번호가 성공적으로 변경되었습니다."
    case PasswordResetFailed(m) => "비밀번호 재설정 중 오류가 발생했습니다: " + m
    case EmailUnconfirmed => "이메일 인증이 필요합니다. 이메일을 확인해주세요."
    case LoginSucceeded => "로그인 성공!"
    case BadCredentials => "이메일 또는 비밀번호가 올바르지 않습니다."
    case LoginFailed(m) => "로그인 중 오류가 발생했습니다: " + m
    case ResetLinkSent => "비밀번호 재설정 링크를 이메일로 발송했습니다.\n메일함을 확인해주세요."
  }
}

=== FILE: video_analysis.dfy ===
/** The live-monitoring session of the analysis page: the record the page keeps
    (job, URLs, latest tick, event log, busy flag, error banner), the reducer that
    folds server-sent messages and transport errors into it, and the start,
    re-analyse, reset and logout transitions around it. The EventSource objects
    are modelled by their identities: the set of connections still open and the
    one the page's ref points at. */
module VideoAnalysis {
  import opened Wrappers
  import opened Monitoring
  import Text

  // ---------------------------------------------------------------------------
  // Session record
  // ---------------------------------------------------------------------------

  datatype VideoMeta = VideoMeta(width: int, height: int)

  /** `currentData`: the latest tick's scores (`None` when the tick had none),
      state, timestamp and video size. The reset transition writes a record
      without a size, hence `meta` is optional. */
  datatype CurrentData = CurrentData(scores: Option<Scores>, state: string, timestamp: Stamp,
                                     meta: Option<VideoMeta>)

  /** The record the page starts with and returns to on logout. */
  const InitialData: CurrentData :=
    CurrentData(Some(ZeroScores), NORMAL, NotNumber, Some(VideoMeta(640, 480)))

  /** The record `handleReset` writes: the same, but without `videoMeta`. */
  const ResetData: CurrentData := CurrentData(Some(ZeroScores), NORMAL, NotNumber, None)

  /** The stream handles: the connections that are still open, the one the ref
      points at (which may already be closed), and the next fresh identity. */
  datatype Transport = Transport(open: set<nat>, current: Option<nat>, next: nat)

  /** The video chosen in the selector; only its `storage_url` matters here. */
  datatype VideoRef = VideoRef(storageUrl: Option<string>)

  datatype Session = Session(
    jobId: Option<string>,
    videoUrl: Option<string>,
    displayUrl: Option<string>,
    selected: Option<VideoRef>,
    current: CurrentData,
    events: seq<Observation>,
    isProcessing: bool,
    error: Option<string>,
    transport: Transport)

  const Initial: Session :=
    Session(None, None, None, None, InitialData, [], false, None, Transport({}, None, 0))

  // ---------------------------------------------------------------------------
  // Invariants
  // ---------------------------------------------------------------------------

  /** Every logged event carries its own position as its frame number. */
  predicate FramesIndexed(events: seq<Observation>) {
    forall i :: 0 <= i < |events| ==> events[i].frame == i
  }

  /** The connection the ref points at, as a set of at most one element. */
  function Referenced(t: Transport): set<nat> {
    if t.current.Some? then {t.current.value} else {}
  }

  /** At most one stream is open, and it is the one the ref points at; every
      identity in use is below `next`. */
  predicate OneStream(t: Transport) {
    && t.open <= Referenced(t)
    && (t.current.Some? ==> t.current.value < t.next)
  }

  predicate Good(s: Session) {
    FramesIndexed(s.events) && OneStream(s.transport)
  }

  lemma InitialGood()
    ensures Good(Initial)
  {
  }

  // ---------------------------------------------------------------------------
  // Stream handles
  // ---------------------------------------------------------------------------

  /** `eventSourceRef.current.close()` when the ref is set; the ref keeps its value. */
  function CloseCurrent(t: Transport): (r: Transport)
    ensures r.current == t.current && r.next == t.next
    ensures t.current.None? ==> r.open == t.open
    ensures t.current.Some? ==> r.open == t.open - {t.current.value}
    ensures OneStream(t) ==> r.open == {}
  {
    match t.current
    case None => t
    case Some(c) => t.(open := t.open - {c})
  }

  /** Close the current stream and clear the ref. */
  function CloseAndClear(t: Transport): (r: Transport)
    ensures r.current.None? && r.next == t.next
    ensures r.open == CloseCurrent(t).open
    ensures OneStream(t) ==> r.open == {}
  {
    CloseCurrent(t).(current := None)
  }

  /** `startSSEConnection`: close the stream the ref points at, then open a
      fresh one and point the ref at it. A stream the ref does not hold stays
      open; in a transport with one stream, the fresh one is the only one. */
  function OpenStream(t: Transport): (r: Transport)
    ensures r.current == Some(t.next) && r.next == t.next + 1
    ensures r.open == CloseCurrent(t).open + {t.next}
    ensures t.open - Referenced(t) <= r.open
    ensures OneStream(t) ==> r.open == {t.next} && OneStream(r)
  {
    Transport(CloseCurrent(t).open + {t.next}, Some(t.next), t.next + 1)
  }

  // ---------------------------------------------------------------------------
  // Server-sent messages (`onmessage`)
  // ---------------------------------------------------------------------------

  /** A parsed message. `img_w`/`img_h` are `None` when absent or null. `Unknown`
      is any other `type`, `Malformed` data that `JSON.parse` rejects. */
  datatype Message =
    | Tick(t: Stamp, state: string, scores: Option<Scores>, imgW: Option<int>, imgH: Option<int>)
    | End
    | Error(message: Option<string>)
    | Heartbeat
    | Unknown
    | Malformed

  /** `v || d` for a numeric field: a missing, null or zero value gives `d`. */
  function OrDefault(v: Option<int>, d: int): (r: int)
    ensures v.Some? && v.value != 0 ==> r == v.value
    ensures v.None? || v.value == 0 ==> r == d
  {
    if v.Some? && v.value != 0 then v.value else d
  }

  /** The event a tick appends: its `t`, `state` and `scores`, numbered with
      the log's length before the append. */
  function TickEvent(events: seq<Observation>, m: Message): (e: Observation)
    requires m.Tick?
    ensures e.frame == |events|
    ensures e.timestamp == m.t && e.state == m.state && e.scores == m.scores
  {
    Observation(m.t, m.state, m.scores, |events|)
  }

  /** The reducer for one message on connection `conn`. A connection the page
      has closed dispatches nothing, so a message on it changes nothing. */
  function Deliver(s: Session, conn: nat, m: Message): (r: Session)
    ensures conn !in s.transport.open ==> r == s
    ensures conn in s.transport.open && m.Tick? ==>
              && r.events == s.events + [TickEvent(s.events, m)]
              && r.current == CurrentData(m.scores, m.state, m.t,
                                          Some(VideoMeta(OrDefault(m.imgW, 640), OrDefault(m.imgH, 480))))
              && r == s.(events := r.events, current := r.current)
    ensures conn in s.transport.open && m.End? ==>
              r == s.(isProcessing := false, transport := CloseAndClear(s.transport))
    ensures conn in s.transport.open && m.Error? ==>
              r == s.(error := m.message, isProcessing := false)
    ensures m.Heartbeat? || m.Unknown? || m.Malformed? ==> r == s
    ensures Good(s) ==> Good(r)
  {
    if conn !in s.transport.open then s
    else
      match m
      case Tick(t, state, scores, w, h) =>
        var e := TickEvent(s.events, m);
        var r := s.(current := CurrentData(scores, state, t, Some(VideoMeta(OrDefault(w, 640), OrDefault(h, 480)))),
                    events := s.events + [e]);
        assert FramesIndexed(s.events) ==> FramesIndexed(r.events) by {
          if FramesIndexed(s.events) {
            forall i | 0 <= i < |r.events| ensures r.events[i].frame == i {
              if i < |s.events| { assert r.events[i] == s.events[i]; }
            }
          }
        }
        r
      case End => s.(isProcessing := false, transport := CloseAndClear(s.transport))
      case Error(msg) => s.(error := msg, isProcessing := false)
      case Heartbeat => s
      case Unknown => s
      case Malformed => s
  }

  // ---------------------------------------------------------------------------
  // Transport errors (`onerror`)
  // ---------------------------------------------------------------------------

  /** The `readyState` of the failing EventSource. */
  datatype ReadyState = Connecting | OpenState | Closed

  const ConnectionLost: string := "서버 연결이 끊어졌습니다. 재분석을 시도해주세요."

  /** The `onerror` handler of connection `conn`. With CLOSED the browser has
      given the connection up and the page shows nothing (and stays busy); with
      CONNECTING the page reports the lost connection, stops being busy and
      closes and clears its stream; with OPEN nothing happens. */
  function TransportError(s: Session, conn: nat, rs: ReadyState): (r: Session)
    ensures conn !in s.transport.open ==> r == s
    ensures conn in s.transport.open && rs == Closed ==>
              r == s.(transport := s.transport.(open := s.transport.open - {conn}))
    ensures conn in s.transport.open && rs == Connecting ==>
              r == s.(error := Some(ConnectionLost), isProcessing := false,
                       transport := CloseAndClear(s.transport))
    ensures rs == OpenState ==> r == s
    ensures r.events == s.events && r.current == s.current
    ensures Good(s) ==> Good(r)
  {
    if conn !in s.transport.open then s
    else
      match rs
      case Closed => s.(transport := s.transport.(open := s.transport.open - {conn}))
      case Connecting =>
        s.(error := Some(ConnectionLost), isProcessing := false, transport := CloseAndClear(s.transport))
      case OpenState => s
  }

  // ---------------------------------------------------------------------------
  // A whole stream
  // ---------------------------------------------------------------------------

  /** Deliver `ms` in order on connection `conn`. */
  function DeliverAll(s: Session, conn: nat, ms: seq<Message>): Session
    decreases |ms|
  {
    if |ms| == 0 then s else DeliverAll(Deliver(s, conn, ms[0]), conn, ms[1..])
  }

  /** The events that the ticks of `ms` contribute while the stream stays open:
      all ticks before the first `end` (an `error` message does not stop it). */
  function TicksBeforeEnd(ms: seq<Message>): (ts: seq<Message>)
    ensures forall k :: 0 <= k < |ts| ==> ts[k].Tick?
    ensures |ts| <= |ms|
    decreases |ms|
  {
    if |ms| == 0 || ms[0].End? then []
    else if ms[0].Tick? then [ms[0]] + TicksBeforeEnd(ms[1..])
    else TicksBeforeEnd(ms[1..])
  }

  /** The events the ticks `ts` append to a log of length `n`. */
  function Appended(n: nat, ts: seq<Message>): (es: seq<Observation>)
    requires forall k :: 0 <= k < |ts| ==> ts[k].Tick?
    ensures |es| == |ts|
    ensures forall k :: 0 <= k < |es| ==>
              es[k] == Observation(ts[k].t, ts[k].state, ts[k].scores, n + k)
    decreases |ts|
  {
    if |ts| == 0 then []
    else [Observation(ts[0].t, ts[0].state, ts[0].scores, n)] + Appended(n + 1, ts[1..])
  }

  /** Feeding a stream to the open current connection appends exactly one
      event per tick before the first `end`, numbered on from the current log,
      and nothing else reaches the log. */
  lemma {:induction false} StreamAppendsTicks(s: Session, conn: nat, ms: seq<Message>)
    requires OneStream(s.transport) && conn in s.transport.open
    ensures DeliverAll(s, conn, ms).events ==
              s.events + Appended(|s.events|, TicksBeforeEnd(ms))
    decreases |ms|
  {
    if |ms| == 0 {
      assert Appended(|s.events|, TicksBeforeEnd(ms)) == [];
    } else {
      var s' := Deliver(s, conn, ms[0]);
      assert DeliverAll(s, conn, ms) == DeliverAll(s', conn, ms[1..]);
      if ms[0].End? {
        assert s.transport.current == Some(conn);
        ClosedStreamIgnored(s', conn, ms[1..]);
        assert TicksBeforeEnd(ms) == [];
      } else {
        assert s'.transport == s.transport;
        StreamAppendsTicks(s', conn, ms[1..]);
        if ms[0].Tick? {
          assert s'.events == s.events + [TickEvent(s.events, ms[0])];
          assert ms == [ms[0]] + ms[1..];
          AppendTick(s.events, ms[0], ms[1..]);
        } else {
          assert TicksBeforeEnd(ms) == TicksBeforeEnd(ms[1..]);
        }
      }
    }
  }

  /** A leading tick contributes its event in front of the rest. */
  lemma {:induction false} AppendTick(events: seq<Observation>, m: Message, rest: seq<Message>)
    requires m.Tick?
    ensures events + [TickEvent(events, m)] + Appended(|events| + 1, TicksBeforeEnd(rest))
            == events + Appended(|events|, TicksBeforeEnd([m] + rest))
  {
    assert ([m] + rest)[1..] == rest;
    assert TicksBeforeEnd([m] + rest) == [m] + TicksBeforeEnd(rest);
    var tail := Appended(|events| + 1, TicksBeforeEnd(rest));
    assert Appended(|events|, TicksBeforeEnd([m] + rest)) == [TickEvent(events, m)] + tail;
  }

  /** Once a connection is closed, nothing delivered on it changes the session. */
  lemma {:induction false} ClosedStreamIgnored(s: Session, conn: nat, ms: seq<Message>)
    requires conn !in s.transport.open
    ensures DeliverAll(s, conn, ms) == s
    decreases |ms|
  {
    if |ms| > 0 {
      ClosedStreamIgnored(s, conn, ms[1..]);
    }
  }

  // ---------------------------------------------------------------------------
  // Starting an analysis (`handleVideoSelect`)
  // ---------------------------------------------------------------------------

  const InvalidUrl: string := "유효하지 않은 비디오 URL입니다. Signed URL 생성 실패"

  /** The guard on `storage_url`: present and starting with `http://` or `https://`. */
  predicate AcceptableUrl(url: Option<string>) {
    url.Some? && (Text.StartsWith(url.value, "http://") || Text.StartsWith(url.value, "https://"))
  }

  /** Selecting a video: remember it and clear the banner; an unacceptable URL
      puts up the invalid-URL error and sends nothing (the busy flag is left as
      it was); otherwise the video is shown, the page becomes busy and the URL is
      posted to the analysis server (`request`). */
  function SelectVideo(s: Session, v: VideoRef): (out: (Session, Option<string>))
    ensures out.0.selected == Some(v)
    ensures !AcceptableUrl(v.storageUrl) <==> out.1.None?
    ensures !AcceptableUrl(v.storageUrl) ==>
              out.0 == s.(selected := Some(v), error := Some(InvalidUrl))
    ensures AcceptableUrl(v.storageUrl) ==>
              && out.1 == v.storageUrl
              && out.0 == s.(selected := Some(v), error := None, displayUrl := v.storageUrl,
                             isProcessing := true)
    ensures Good(s) ==> Good(out.0)
  {
    var s1 := s.(selected := Some(v), error := None);
    if !AcceptableUrl(v.storageUrl) then (s1.(error := Some(InvalidUrl)), None)
    else (s1.(displayUrl := v.storageUrl, isProcessing := true), v.storageUrl)
  }

  /** The analysis server's answer to the upload request. */
  datatype StartReply =
    | StartOk(jobId: string, videoPath: string)
    | StartHttpError(status: nat)
    | StartThrew(message: string)

  /** The server answered the upload request: on success the job and video URL
      are taken over, the log is emptied and a fresh stream is opened; otherwise
      the failure is reported and the page stops being busy. */
  function StartReplied(s: Session, reply: StartReply): (r: Session)
    ensures reply.StartOk? ==>
              && r.jobId == Some(reply.jobId)
              && r.videoUrl == Some("http://localhost:8000" + reply.videoPath)
              && r.events == []
              && r.transport == OpenStream(s.transport)
              && r.isProcessing == s.isProcessing && r.error == s.error
    ensures reply.StartHttpError? ==>
              r == s.(error := Some("비디오 분석 시작 실패: Upload failed: " + Text.DecimalString(reply.status)),
                       isProcessing := false)
    ensures reply.StartThrew? ==>
              r == s.(error := Some("비디오 분석 시작 실패: " + reply.message), isProcessing := false)
    ensures Good(s) ==> Good(r)
  {
    match reply
    case StartOk(job, path) =>
      s.(jobId := Some(job), videoUrl := Some("http://localhost:8000" + path), events := [],
         transport := OpenStream(s.transport))
    case StartHttpError(status) =>
      s.(error := Some("비디오 분석 시작 실패: Upload failed: " + Text.DecimalString(status)), isProcessing := false)
    case StartThrew(msg) =>
      s.(error := Some("비디오 분석 시작 실패: " + msg), isProcessing := false)
  }

  // ---------------------------------------------------------------------------
  // Re-analysing, resetting, logging out
  // ---------------------------------------------------------------------------

  /** A job id JavaScript treats as present (`if (!jobId) return`). */
  predicate HasJob(s: Session) {
    s.jobId.Some? && s.jobId.value != ""
  }

  /** `handleReanalyze` up to the restart request: without a job nothing
      happens; otherwise the page becomes busy, the banner and the log are
      cleared, and the old stream is closed and the ref cleared before the
      restart of the job (`request`) is sent. */
  function Reanalyze(s: Session): (out: (Session, Option<string>))
    ensures !HasJob(s) <==> out.1.None?
    ensures !HasJob(s) ==> out.0 == s
    ensures HasJob(s) ==>
              && out.1 == s.jobId
              && out.0 == s.(isProcessing := true, error := None, events := [],
                             transport := CloseAndClear(s.transport))
    ensures HasJob(s) && OneStream(s.transport) ==> out.0.transport.open == {}
    ensures Good(s) ==> Good(out.0)
  {
    if !HasJob(s) then (s, None)
    else
      var t := CloseAndClear(s.transport);
      (s.(isProcessing := true, error := None, events := [], transport := t), s.jobId)
  }

  datatype RestartReply = RestartOk | RestartHttpError(status: nat) | RestartThrew(message: string)

  /** The server answered the restart request: on success a fresh stream is
      opened for the same job; on failure the error is reported (the HTTP case
      carries the prefix twice, once from the thrown error and once from the
      handler) and the page stops being busy. */
  function ReanalyzeReplied(s: Session, reply: RestartReply): (r: Session)
    ensures reply.RestartOk? ==> r == s.(transport := OpenStream(s.transport))
    ensures reply.RestartHttpError? ==>
              r == s.(error := Some("재분석 실패: 재분석 실패: " + Text.DecimalString(reply.status)),
                       isProcessing := false)
    ensures reply.RestartThrew? ==>
              r == s.(error := Some("재분석 실패: " + reply.message), isProcessing := false)
    ensures Good(s) ==> Good(r)
  {
    match reply
    case RestartOk => s.(transport := OpenStream(s.transport))
    case RestartHttpError(status) =>
      s.(error := Some("재분석 실패: 재분석 실패: " + Text.DecimalString(status)), isProcessing := false)
    case RestartThrew(msg) => s.(error := Some("재분석 실패: " + msg), isProcessing := false)
  }

  /** `handleReset`: close the stream (the ref keeps pointing at it) and clear
      the job, both URLs, the selection, the latest tick (to a record without a
      video size), the log, the busy flag and the banner. */
  function Reset(s: Session): (r: Session)
    ensures r.jobId.None? && r.videoUrl.None? && r.displayUrl.None? && r.selected.None?
    ensures r.current == ResetData && r.events == [] && !r.isProcessing && r.error.None?
    ensures r.transport == CloseCurrent(s.transport)
    ensures s.transport.current.Some? ==> s.transport.current.value !in r.transport.open
    ensures Good(s) ==> Good(r)
  {
    Session(None, None, None, None, ResetData, [], false, None, CloseCurrent(s.transport))
  }

  /** `handleLogout`: like reset, but the latest tick returns to the initial
      record and the displayed URL and the selection are kept. */
  function Logout(s: Session): (r: Session)
    ensures r.jobId.None? && r.videoUrl.None? && r.current == InitialData
    ensures r.events == [] && !r.isProcessing && r.error.None?
    ensures r.displayUrl == s.displayUrl && r.selected == s.selected
    ensures r.transport == CloseCurrent(s.transport)
    ensures Good(s) ==> Good(r)
  {
    s.(jobId := None, videoUrl := None, current := InitialData, events := [], isProcessing := false,
       error := None, transport := CloseCurrent(s.transport))
  }

  /** The banner's close button. */
  function DismissError(s: Session): (r: Session)
    ensures r.error.None? && r == s.(error := None)
    ensures Good(s) ==> Good(r)
  {
    s.(error := None)
  }
}

=== FILE: video_manager.dfy ===
/** The upload widget of the analysis page. It builds storage paths like the
    management page but checks only the MIME type, asks the auth service for
    the user at upload time, and has no rollback. */
module VideoManager {
  import opened Wrappers
  import opened Text
  import opened VideoStorage

  datatype Outcome = Outcome(
    authCalled: bool,
    calls: seq<Call>,
    error: Option<string>,
    uploaded: bool)

  /** The message shown for a failure: the error's message, or a fixed text
      when that is empty (`err.message || ...`). */
  function FailureText(message: string): (r: string)
    ensures r != ""
    ensures message != "" ==> r == message
  {
    if message == "" then "업로드 중 오류가 발생했습니다." else message
  }

  /** Choosing a file: no file does nothing; a non-video is refused; then the
      user is fetched (`user` is `None` when that fails or there is none), the
      file is uploaded and its row inserted. `uploaded` covers both the
      callback and the reset of the file input, which happen together. */
  function HandleUpload(file: Option<File>, user: Option<string>, now: nat, newId: nat,
                        upload: Reply, insert: Reply): (r: Outcome)
    ensures file == None ==> r == Outcome(false, [], None, false)
    ensures file.Some? && !StartsWith(file.value.mimeType, "video/") ==>
              r == Outcome(false, [], Some("비디오 파일만 업로드 가능합니다."), false)
    ensures r.authCalled <==> file.Some? && StartsWith(file.value.mimeType, "video/")
    ensures r.authCalled && user == None ==> r.calls == [] && r.error == Some(FailureText("로그인이 필요합니다."))
    ensures r.authCalled && user.Some? ==>
              r.calls == UploadCalls(StoragePath(user.value, now, file.value.name), newId, upload.Ok?, insert.Ok?, false)[..if upload.Ok? then 2 else 1]
    ensures r.uploaded <==> r.authCalled && user.Some? && upload.Ok? && insert.Ok?
    ensures r.uploaded <==> r.error == None && r.authCalled
  {
    match file
    case None => Outcome(false, [], None, false)
    case Some(f) =>
      if !StartsWith(f.mimeType, "video/") then Outcome(false, [], Some("비디오 파일만 업로드 가능합니다."), false)
      else match user
        case None => Outcome(true, [], Some(FailureText("로그인이 필요합니다.")), false)
        case Some(uid) => Transfer(StoragePath(uid, now, f.name), newId, upload, insert)
  }

  /** The upload to path `p` and the row insert, with no rollback: the calls
      stop at the first failure, whose message is shown. */
  function Transfer(p: string, newId: nat, upload: Reply, insert: Reply): (r: Outcome)
    ensures r.authCalled
    ensures r.calls == UploadCalls(p, newId, upload.Ok?, insert.Ok?, false)[..if upload.Ok? then 2 else 1]
    ensures r.uploaded <==> upload.Ok? && insert.Ok?
    ensures r.uploaded <==> r.error == None
    ensures upload.Failed? ==> r.error == Some(FailureText(upload.message))
    ensures upload.Ok? && insert.Failed? ==> r.error == Some(FailureText(insert.message))
  {
    match upload
    case Failed(m) => Outcome(true, [Upload(p, false)], Some(FailureText(m)), false)
    case Ok =>
      match insert
      case Failed(m) => Outcome(true, [Upload(p, true), Insert(newId, p, false)], Some(FailureText(m)), false)
      case Ok => Outcome(true, [Upload(p, true), Insert(newId, p, true)], None, true)
  }

  /** The widget has no size bound: a video of any size reaches the upload. */
  lemma NoSizeBound(name: string, size: nat, uid: string, now: nat, newId: nat, upload: Reply, insert: Reply)
    ensures var f := File(name, "video/mp4", size);
            |HandleUpload(Some(f), Some(uid), now, newId, upload, insert).calls| >= 1
  {
    assert StartsWith("video/mp4", "video/");
  }

  /** Without a rollback, a failed insert leaves the uploaded file in the
      bucket with no row: an orphan, which the management page's
      reconciliation later removes. */
  lemma InsertFailureLeavesOrphan(st: Remote, f: File, uid: string, now: nat, newId: nat, message: string)
    requires StartsWith(f.mimeType, "video/")
    ensures var p := StoragePath(uid, now, f.name);
            var after := ApplyAll(st, HandleUpload(Some(f), Some(uid), now, newId, Ok, Failed(message)).calls);
            p in after.files && after.rows == st.rows
  {
    var p := StoragePath(uid, now, f.name);
    assert HandleUpload(Some(f), Some(uid), now, newId, Ok, Failed(message)).calls
           == [Upload(p, true), Insert(newId, p, false)];
    UploadThenFailedInsert(st, p, newId);
  }

  lemma UploadThenFailedInsert(st: Remote, p: string, newId: nat)
    ensures var after := ApplyAll(st, [Upload(p, true), Insert(newId, p, false)]);
            p in after.files && after.rows == st.rows
  {
    var up, ins := Upload(p, true), Insert(newId, p, false);
    ApplySnoc(st, [], up);
    ApplySnoc(st, [up], ins);
    assert [] + [up] == [up];
    assert [up] + [ins] == [up, ins];
  }
}

=== FILE: video_storage.dfy ===
/** The video-management page's bookkeeping between the storage bucket and the
    `videos` table: the storage path of an upload, the acceptance test, the
    upload with its rollback, the delete order, and the reconciliation that
    `loadVideos` runs between the bucket listing and the table rows. Storage
    and table calls are replies passed in; their effect is modelled on an
    abstract remote state. */
module VideoStorage {
  import opened Wrappers
  import opened Text

  /** A row of the `videos` table (the columns the page uses). */
  datatype Row = Row(id: nat, storagePath: string)

  /** A file chosen in the browser. */
  datatype File = File(name: string, mimeType: string, size: nat)

  /** The answer to a storage or table call. */
  datatype Reply = Ok | Failed(message: string)

  /** The size bound of an upload: 500 MiB. */
  const MaxUploadSize: nat := 500 * 1024 * 1024

  /** The `limit` of the bucket listing. */
  const ListLimit: nat := 100

  // ---------------------------------------------------------------------------
  // Storage paths
  // ---------------------------------------------------------------------------

  /** `name.split('.').pop()`: the text after the last '.', or the whole name
      when it has none. */
  function Extension(name: string): (r: string)
    ensures '.' !in r
    ensures '.' !in name ==> r == name
    ensures '.' in name ==> |r| < |name| && name == name[..|name| - |r| - 1] + "." + r
  {
    var r := LastField(name, '.');
    assert '.' in name && |r| == |name| ==> r == name;
    if '.' in name then
      assert name == name[..|name| - |r| - 1] + [name[|name| - |r| - 1]] + name[|name| - |r|..];
      r
    else
      r
  }

  /** `${userId}/${Date.now()}.${extension}`. */
  function StoragePath(userId: string, now: nat, name: string): string {
    userId + "/" + DecimalString(now) + "." + Extension(name)
  }

  /** The stored file lies in the user's folder. */
  lemma StoragePathInFolder(userId: string, now: nat, name: string)
    ensures StartsWith(StoragePath(userId, now, name), userId + "/")
  {
    FolderPrefix(userId, DecimalString(now), Extension(name));
  }

  lemma FolderPrefix(u: string, d: string, e: string)
    ensures StartsWith(u + "/" + d + "." + e, u + "/")
  {
    assert u + "/" + d + "." + e == (u + "/") + (d + "." + e);
  }

  /** The stored file keeps the chosen file's extension. */
  lemma StoragePathKeepsExtension(userId: string, now: nat, name: string)
    ensures LastField(StoragePath(userId, now, name), '.') == LastField(name, '.')
  {
    var stem := userId + "/" + DecimalString(now);
    LastFieldAfterSeparator(stem, '.', Extension(name));
  }

  /** The first '.'-field of `d + "." + e` is `d` when `d` has no '.'. */
  lemma {:induction false} FirstFieldOfDotted(d: string, e: string)
    requires '.' !in d
    ensures FirstField(d + "." + e, '.') == d
  {
    var s := d + "." + e;
    var r := FirstField(s, '.');
    assert s[|d|] == '.';
    assert forall k :: 0 <= k < |r| ==> s[k] == r[k] && s[k] != '.';
    assert forall k :: 0 <= k < |d| ==> s[k] == d[k] && s[k] != '.';
    assert |r| == |d|;
    assert r == s[..|r|] == d;
  }

  /** The millisecond stamp a storage path was built from, read back from it. */
  function PathStamp(userId: string, path: string): nat
    requires StartsWith(path, userId + "/")
  {
    var f := FirstField(path[|userId| + 1..], '.');
    if All(f, Digit) then DigitsValue(f) else 0
  }

  /** The stamp reads back from the path. */
  lemma PathStampRoundTrip(userId: string, now: nat, name: string)
    ensures StartsWith(StoragePath(userId, now, name), userId + "/")
    ensures PathStamp(userId, StoragePath(userId, now, name)) == now
  {
    StoragePathInFolder(userId, now, name);
    var d := DecimalString(now);
    var p := StoragePath(userId, now, name);
    assert p[|userId| + 1..] == d + "." + Extension(name);
    assert '.' !in d by { assert !InClass(Digit, '.'); }
    FirstFieldOfDotted(d, Extension(name));
    DecimalRoundTrip(now);
  }

  /** Two uploads by the same user at different milliseconds get different
      storage paths, whatever the file names. */
  lemma DistinctTimesDistinctPaths(userId: string, now1: nat, now2: nat, name1: string, name2: string)
    requires now1 != now2
    ensures StoragePath(userId, now1, name1) != StoragePath(userId, now2, name2)
  {
    PathStampRoundTrip(userId, now1, name1);
    PathStampRoundTrip(userId, now2, name2);
  }

  // ---------------------------------------------------------------------------
  // Upload acceptance
  // ---------------------------------------------------------------------------

  datatype UploadCheck = NoFile | NotVideo | TooLarge | Accepted

  /** The checks in front of an upload: a file was chosen, its MIME type
      starts with "video/", and it is at most 500 MiB. */
  function CheckUpload(file: Option<File>): (c: UploadCheck)
    ensures c == NoFile <==> file == None
    ensures c == NotVideo <==> file.Some? && !StartsWith(file.value.mimeType, "video/")
    ensures c == TooLarge <==>
              file.Some? && StartsWith(file.value.mimeType, "video/") && file.value.size > MaxUploadSize
    ensures c == Accepted <==>
              file.Some? && StartsWith(file.value.mimeType, "video/") && file.value.size <= MaxUploadSize
  {
    match file
    case None => NoFile
    case Some(f) =>
      if !StartsWith(f.mimeType, "video/") then NotVideo
      else if f.size > MaxUploadSize then TooLarge
      else Accepted
  }

  /** The bound is inclusive: a video of exactly 500 MiB is accepted, one
      byte more is refused. */
  lemma SizeBoundInclusive(name: string, mimeType: string)
    requires StartsWith(mimeType, "video/")
    ensures CheckUpload(Some(File(name, mimeType, 524288000))) == Accepted
    ensures CheckUpload(Some(File(name, mimeType, 524288001))) == TooLarge
  {
  }

  function CheckMessage(c: UploadCheck): string
    requires c == NotVideo || c == TooLarge
  {
    if c == NotVideo then "비디오 파일만 업로드 가능합니다." else "파일 크기는 500MB 이하여야 합니다."
  }

  // ---------------------------------------------------------------------------
  // Remote state and calls
  // ---------------------------------------------------------------------------

  /** The bucket's files and the table's rows (id to storage path). */
  datatype Remote = Remote(files: set<string>, rows: map<nat, string>)

  /** A storage or table call and whether it succeeded. */
  datatype Call =
    | Upload(path: string, ok: bool)
    | Insert(id: nat, path: string, ok: bool)
    | Remove(path: string, ok: bool)
    | DeleteRow(id: nat, ok: bool)

  /** The effect of one call: a failed call changes nothing. */
  function Apply(st: Remote, c: Call): Remote {
    if !c.ok then st
    else match c
      case Upload(p, _) => st.(files := st.files + {p})
      case Insert(id, p, _) => st.(rows := st.rows[id := p])
      case Remove(p, _) => st.(files := st.files - {p})
      case DeleteRow(id, _) => st.(rows := st.rows - {id})
  }

  function ApplyAll(st: Remote, calls: seq<Call>): Remote
    decreases |calls|
  {
    if |calls| == 0 then st else Apply(ApplyAll(st, calls[..|calls| - 1]), calls[|calls| - 1])
  }

  /** Every file has a row and every row a file, for the paths in `paths`. */
  predicate PairedOn(st: Remote, paths: set<string>) {
    forall p :: p in paths ==> (p in st.files <==> p in st.rows.Values)
  }

  // ---------------------------------------------------------------------------
  // Upload, with rollback
  // ---------------------------------------------------------------------------

  /** The calls of an accepted upload to path `p`: the upload; when it
      succeeded, the row insert; when that failed, removal of the file. */
  function UploadCalls(p: string, newId: nat, uploadOk: bool, insertOk: bool, rollbackOk: bool): (calls: seq<Call>)
    ensures 1 <= |calls| <= 3 && calls[0] == Upload(p, uploadOk)
    ensures |calls| >= 2 <==> uploadOk
    ensures |calls| >= 2 ==> calls[1] == Insert(newId, p, insertOk)
    ensures |calls| == 3 <==> uploadOk && !insertOk
    ensures |calls| == 3 ==> calls[2] == Remove(p, rollbackOk)
  {
    if !uploadOk then [Upload(p, false)]
    else if insertOk then [Upload(p, true), Insert(newId, p, true)]
    else [Upload(p, true), Insert(newId, p, false), Remove(p, rollbackOk)]
  }

  /** An upload to a new path writes its row exactly when both the upload and
      the insert succeeded, and keeps its file unless the insert failed and
      the rollback removal went through. The handler ignores the removal's
      result, so only a successful rollback leaves bucket and table paired;
      a failed one leaves the file without a row. Other paths are untouched. */
  lemma UploadKeepsFilesAndRowsPaired(st: Remote, p: string, newId: nat, uploadOk: bool, insertOk: bool,
                                      rollbackOk: bool)
    requires p !in st.files && p !in st.rows.Values && newId !in st.rows
    ensures var after := ApplyAll(st, UploadCalls(p, newId, uploadOk, insertOk, rollbackOk));
            && (p in after.rows.Values <==> uploadOk && insertOk)
            && (p in after.files <==> uploadOk && (insertOk || !rollbackOk))
            && (PairedOn(after, {p}) <==> !uploadOk || insertOk || rollbackOk)
            && (forall q :: q != p ==> (q in after.files <==> q in st.files))
  {
    var after := ApplyAll(st, UploadCalls(p, newId, uploadOk, insertOk, rollbackOk));
    if !uploadOk {
      UploadFailedEffect(st, p);
    } else if insertOk {
      UploadInsertedEffect(st, p, newId);
      assert after.rows[newId] == p;
    } else {
      UploadRolledBackEffect(st, p, newId, rollbackOk);
    }
  }

  /** The remote state after a failed upload: unchanged. */
  lemma UploadFailedEffect(st: Remote, p: string)
    ensures ApplyAll(st, [Upload(p, false)]) == st
  {
    ApplySnoc(st, [], Upload(p, false));
    assert [] + [Upload(p, false)] == [Upload(p, false)];
  }

  /** The remote state after an upload and a successful insert. */
  lemma UploadInsertedEffect(st: Remote, p: string, newId: nat)
    ensures ApplyAll(st, [Upload(p, true), Insert(newId, p, true)]) == Remote(st.files + {p}, st.rows[newId := p])
  {
    var up, ins := Upload(p, true), Insert(newId, p, true);
    ApplySnoc(st, [], up);
    ApplySnoc(st, [up], ins);
    assert [] + [up] == [up];
    assert [up] + [ins] == [up, ins];
  }

  /** The remote state after an upload, a failed insert and the rollback
      removal, which takes the file away only when it succeeds. */
  lemma UploadRolledBackEffect(st: Remote, p: string, newId: nat, rollbackOk: bool)
    ensures ApplyAll(st, [Upload(p, true), Insert(newId, p, false), Remove(p, rollbackOk)])
            == Remote(if rollbackOk then st.files + {p} - {p} else st.files + {p}, st.rows)
  {
    var up, ins, rm := Upload(p, true), Insert(newId, p, false), Remove(p, rollbackOk);
    ApplySnoc(st, [], up);
    ApplySnoc(st, [up], ins);
    ApplySnoc(st, [up, ins], rm);
    assert [] + [up] == [up];
    assert [up] + [ins] == [up, ins];
    assert [up, ins] + [rm] == [up, ins, rm];
  }

  /** Applying one more call. */
  lemma ApplySnoc(st: Remote, calls: seq<Call>, c: Call)
    ensures ApplyAll(st, calls + [c]) == Apply(ApplyAll(st, calls), c)
  {
    assert (calls + [c])[..|calls|] == calls;
  }

  datatype UploadOutcome = UploadOutcome(
    calls: seq<Call>,
    error: Option<string>,
    success: Option<string>,
    reload: bool)

  /** Choosing a file on the management page: the checks; then the calls of
      `UploadCalls` for the path built from the clock reading `now`, with the id
      the table assigns. `rollbackOk` is the answer to the rollback removal,
      which the page does not inspect. */
  function UploadFile(userId: string, now: nat, file: Option<File>, newId: nat,
                      upload: Reply, insert: Reply, rollbackOk: bool): (r: UploadOutcome)
    ensures CheckUpload(file) != Accepted ==> r.calls == [] && !r.reload && r.success == None
    ensures CheckUpload(file) == NoFile ==> r.error == None
    ensures CheckUpload(file) == NotVideo || CheckUpload(file) == TooLarge ==>
              r.error == Some(CheckMessage(CheckUpload(file)))
    ensures CheckUpload(file) == Accepted ==>
              r.calls == UploadCalls(StoragePath(userId, now, file.value.name), newId, upload.Ok?, insert.Ok?, rollbackOk)
    ensures CheckUpload(file) == Accepted && upload.Failed? ==> r.error == Some("업로드 실패: " + upload.message)
    ensures CheckUpload(file) == Accepted && upload.Ok? && insert.Failed? ==>
              r.error == Some("업로드 실패: " + insert.message)
    ensures r.reload <==> CheckUpload(file) == Accepted && upload.Ok? && insert.Ok?
    ensures r.reload <==> r.success == Some("영상이 성공적으로 업로드되었습니다!")
    ensures !r.reload ==> r.success == None
    ensures r.reload ==> r.error == None
  {
    var check := CheckUpload(file);
    if check == NoFile then UploadOutcome([], None, None, false)
    else if check != Accepted then UploadOutcome([], Some(CheckMessage(check)), None, false)
    else
      var p := StoragePath(userId, now, file.value.name);
      var calls := UploadCalls(p, newId, upload.Ok?, insert.Ok?, rollbackOk);
      match upload
      case Failed(m) => UploadOutcome(calls, Some("업로드 실패: " + m), None, false)
      case Ok =>
        match insert
        case Ok => UploadOutcome(calls, None, Some("영상이 성공적으로 업로드되었습니다!"), true)
        case Failed(m) => UploadOutcome(calls, Some("업로드 실패: " + m), None, false)
  }

  // ---------------------------------------------------------------------------
  // Delete, storage first
  // ---------------------------------------------------------------------------

  /** `reload` is the `loadVideos()` call after a successful delete, which
      runs the reconciliation again. */
  datatype DeleteOutcome = DeleteOutcome(calls: seq<Call>, error: Option<string>, success: Option<string>,
                                         reload: bool)

  /** The delete button: after confirmation, the storage object is removed
      first and the row is deleted only when that removal succeeded; a
      complete delete reloads the list. */
  function DeleteVideo(confirmed: bool, id: nat, path: string, remove: Reply, delete: Reply): (r: DeleteOutcome)
    ensures !confirmed ==> r == DeleteOutcome([], None, None, false)
    ensures confirmed ==> |r.calls| >= 1 && r.calls[0] == Remove(path, remove.Ok?)
    ensures confirmed && remove.Failed? ==>
              r.calls == [Remove(path, false)] && r.error == Some("삭제 실패: " + remove.message)
    ensures confirmed && remove.Ok? ==> r.calls == [Remove(path, true), DeleteRow(id, delete.Ok?)]
    ensures r.success.Some? <==> confirmed && remove.Ok? && delete.Ok?
    ensures r.reload <==> r.success.Some?
    ensures r.success.Some? ==> r.success.value == "영상이 삭제되었습니다."
    ensures r.reload ==> r.error == None
    ensures confirmed && remove.Ok? && delete.Failed? ==> r.error == Some("삭제 실패: " + delete.message)
  {
    if !confirmed then DeleteOutcome([], None, None, false)
    else match remove
      case Failed(m) => DeleteOutcome([Remove(path, false)], Some("삭제 실패: " + m), None, false)
      case Ok =>
        match delete
        case Ok => DeleteOutcome([Remove(path, true), DeleteRow(id, true)], None, Some("영상이 삭제되었습니다."), true)
        case Failed(m) => DeleteOutcome([Remove(path, true), DeleteRow(id, false)], Some("삭제 실패: " + m), None, false)
  }

  /** A failed storage removal leaves bucket and table untouched, and a row is
      deleted only after its file was removed. */
  lemma DeleteRemovesFileBeforeRow(st: Remote, id: nat, path: string, remove: Reply, delete: Reply)
    ensures var after := ApplyAll(st, DeleteVideo(true, id, path, remove, delete).calls);
            && (remove.Failed? ==> after == st)
            && (id in st.rows && id !in after.rows ==> path !in after.files)
  {
    var calls := DeleteVideo(true, id, path, remove, delete).calls;
    if remove.Failed? {
      assert calls[..0] == [];
    } else {
      assert calls[..1] == [Remove(path, true)];
      assert calls[..1][..0] == [];
    }
  }

  // ---------------------------------------------------------------------------
  // Reconciliation
  // ---------------------------------------------------------------------------

  /** The bucket listing's answer. */
  datatype Listing = ListFailed | Listed(names: seq<string>)

  /** The listing the page requests: the newest `ListLimit` names of the
      user's folder, `names` being the whole folder, newest first. */
  function FirstPage(names: seq<string>): Listing {
    Listed(if |names| <= ListLimit then names else names[..ListLimit])
  }

  /** A listing of the whole folder. */
  function WholeFolder(names: seq<string>): Listing {
    Listed(names)
  }

  /** The user's paths `${userId}/${name}` for the listed names. */
  function FolderPaths(userId: string, names: seq<string>): set<string> {
    set i | 0 <= i < |names| :: userId + "/" + names[i]
  }

  /** The `storage_path` values of the table rows. */
  function RowPaths(rows: seq<Row>): set<string> {
    set i | 0 <= i < |rows| :: rows[i].storagePath
  }

  /** Storage paths without a row: the orphans. */
  function Orphans(storage: set<string>, rows: seq<Row>): set<string> {
    storage - RowPaths(rows)
  }

  /** Row paths without a file: the missing ones. */
  function Missing(storage: set<string>, rows: seq<Row>): set<string> {
    RowPaths(rows) - storage
  }

  /** Every path seen is an orphan, a missing one, or present on both sides,
      and exactly one of these. */
  lemma ReconcilePartition(storage: set<string>, rows: seq<Row>, p: string)
    requires p in storage || p in RowPaths(rows)
    ensures p in Orphans(storage, rows) || p in Missing(storage, rows) || (p in storage && p in RowPaths(rows))
    ensures !(p in Orphans(storage, rows) && p in Missing(storage, rows))
    ensures p in storage && p in RowPaths(rows) ==> p !in Orphans(storage, rows) && p !in Missing(storage, rows)
  {
  }

  /** `data.find(v => v.storage_path === path)`, searching from `i`. */
  function FindRow(rows: seq<Row>, path: string, i: nat): (k: nat)
    requires i <= |rows|
    ensures i <= k <= |rows|
    ensures k < |rows| ==> rows[k].storagePath == path
    ensures forall j :: i <= j < k ==> rows[j].storagePath != path
    decreases |rows| - i
  {
    if i == |rows| then i
    else if rows[i].storagePath == path then i
    else FindRow(rows, path, i + 1)
  }

  /** The first row with a path that some row has. */
  function FirstRowWith(rows: seq<Row>, path: string): (r: Row)
    requires path in RowPaths(rows)
    ensures r.storagePath == path
    ensures exists i :: 0 <= i < |rows| && rows[i] == r
  {
    var k := FindRow(rows, path, 0);
    assert k < |rows| by {
      var j :| 0 <= j < |rows| && rows[j].storagePath == path;
    }
    rows[k]
  }

  /** The cleanup `loadVideos` performs: remove the orphan files, delete the
      first row of each missing path, and ask for a re-query when anything was
      missing. */
  datatype Cleanup = Cleanup(removeFiles: set<string>, deleteRows: set<nat>, requery: bool)

  function Reconcile(storage: set<string>, rows: seq<Row>): (c: Cleanup)
    ensures c.removeFiles == Orphans(storage, rows)
    ensures c.requery <==> Missing(storage, rows) != {}
    ensures forall id :: id in c.deleteRows <==>
              exists p :: p in Missing(storage, rows) && FirstRowWith(rows, p).id == id
  {
    var missing := Missing(storage, rows);
    Cleanup(Orphans(storage, rows), set p | p in missing :: FirstRowWith(rows, p).id, missing != {})
  }

  /** A row is deleted only when its path is missing from the storage view,
      and orphan-only cleanup never asks for a re-query. */
  lemma ReconcileDeletesOnlyUnlisted(storage: set<string>, rows: seq<Row>)
    ensures forall id :: id in Reconcile(storage, rows).deleteRows ==>
              exists i :: 0 <= i < |rows| && rows[i].id == id && rows[i].storagePath !in storage
    ensures Missing(storage, rows) == {} ==> !Reconcile(storage, rows).requery
  {
    forall id | id in Reconcile(storage, rows).deleteRows
      ensures exists i :: 0 <= i < |rows| && rows[i].id == id && rows[i].storagePath !in storage
    {
      var p :| p in Missing(storage, rows) && FirstRowWith(rows, p).id == id;
      var r := FirstRowWith(rows, p);
      var i :| 0 <= i < |rows| && rows[i] == r;
    }
  }

  // ---------------------------------------------------------------------------
  // Signed URLs
  // ---------------------------------------------------------------------------

  /** The signed-URL map for the first `n` rows, built in row order.
      `signed` holds the answers of the URL-signing calls that returned no
      error; an empty URL is skipped like a missing one. */
  function SignedUrls(rows: seq<Row>, signed: map<string, string>, n: nat): (m: map<nat, string>)
    requires n <= |rows|
    ensures forall id :: id in m <==>
              exists i :: 0 <= i < n && rows[i].id == id && Signable(rows[i], signed)
    ensures forall id :: id in m ==>
              exists i :: 0 <= i < n && rows[i].id == id && Signable(rows[i], signed)
                          && m[id] == signed[rows[i].storagePath]
    decreases n
  {
    if n == 0 then map[]
    else
      var m := SignedUrls(rows, signed, n - 1);
      var row := rows[n - 1];
      if Signable(row, signed) then m[row.id := signed[row.storagePath]] else m
  }

  predicate Signable(row: Row, signed: map<string, string>) {
    row.storagePath in signed && signed[row.storagePath] != ""
  }

  // ---------------------------------------------------------------------------
  // Loading the list
  // ---------------------------------------------------------------------------

  /** The table query's answer. */
  datatype RowsReply = RowsFailed(message: string) | RowsFound(rows: seq<Row>)

  /** The outcome of `loadVideos`: the query failed; or the cleanup ran and
      either a re-query was scheduled (`shown` is `None`: the list is not
      updated) or the rows are shown with their signed URLs. */
  datatype Load =
    | LoadFailed(error: string)
    | Loaded(cleanup: Cleanup, shown: Option<seq<Row>>, urls: map<nat, string>)

  /** `loadVideos`, given the storage view the cleanup compares against
      (`None`: no trustworthy view, so no cleanup). */
  function LoadVideos(view: Option<set<string>>, reply: RowsReply, signed: map<string, string>): (r: Load)
    ensures reply.RowsFailed? ==> r == LoadFailed("영상 목록을 불러오는데 실패했습니다: " + reply.message)
    ensures reply.RowsFound? ==> r.Loaded?
    ensures r.Loaded? && view == None ==> r.cleanup == Cleanup({}, {}, false)
    ensures r.Loaded? && view.Some? ==> r.cleanup == Reconcile(view.value, reply.rows)
    ensures r.Loaded? ==> (r.shown == None <==> r.cleanup.requery)
    ensures r.Loaded? && r.shown.Some? ==>
              r.shown == Some(reply.rows) && r.urls == SignedUrls(reply.rows, signed, |reply.rows|)
  {
    match reply
    case RowsFailed(m) => LoadFailed("영상 목록을 불러오는데 실패했습니다: " + m)
    case RowsFound(rows) =>
      var cleanup := if view.Some? then Reconcile(view.value, rows) else Cleanup({}, {}, false);
      if cleanup.requery then Loaded(cleanup, None, map[])
      else Loaded(cleanup, Some(rows), SignedUrls(rows, signed, |rows|))
  }

  /** The storage view as the page builds it: the listed paths, and the empty
      set when the listing failed (`storageFiles?.map(...) || []`). */
  function ViewAsWritten(userId: string, listing: Listing): Option<set<string>> {
    match listing
    case ListFailed => Some({})
    case Listed(names) => Some(FolderPaths(userId, names))
  }

  /** A failed listing makes every row look missing: each row path's first row
      is deleted, and with any rows at all a re-query follows. */
  lemma ListFailureDeletesEveryRow(userId: string, rows: seq<Row>)
    ensures var c := Reconcile(ViewAsWritten(userId, ListFailed).value, rows);
            && (forall i :: 0 <= i < |rows| ==> FirstRowWith(rows, rows[i].storagePath).id in c.deleteRows)
            && (c.requery <==> |rows| > 0)
  {
    var c := Reconcile({}, rows);
    forall i | 0 <= i < |rows|
      ensures FirstRowWith(rows, rows[i].storagePath).id in c.deleteRows
    {
      assert rows[i].storagePath in Missing({}, rows);
    }
    if |rows| > 0 {
      assert rows[0].storagePath in Missing({}, rows);
    }
  }

  /** With more than `ListLimit` files, the first page leaves out the older
      ones, and the row of such a file is deleted although the file exists. */
  lemma FirstPageDeletesOlderRows(userId: string, names: seq<string>, rows: seq<Row>, j: nat)
    requires ListLimit <= j < |names|
    requires forall a, b :: 0 <= a < b < |names| ==> names[a] != names[b]
    requires userId + "/" + names[j] in RowPaths(rows)
    ensures userId + "/" + names[j] in FolderPaths(userId, names)
    ensures FirstRowWith(rows, userId + "/" + names[j]).id
            in Reconcile(ViewAsWritten(userId, FirstPage(names)).value, rows).deleteRows
  {
    var p := userId + "/" + names[j];
    var page := names[..ListLimit];
    var u := userId + "/";
    assert FirstPage(names) == Listed(page);
    forall i | 0 <= i < |page|
      ensures userId + "/" + page[i] != p
    {
      assert page[i] == names[i] != names[j];
      CancelLeft(u, page[i], names[j]);
    }
    assert p !in FolderPaths(userId, page);
    assert p in Missing(FolderPaths(userId, page), rows);
  }

  /** Equal strings with a common prefix agree after it. */
  lemma CancelLeft(u: string, a: string, b: string)
    ensures u + a == u + b ==> a == b
  {
    if u + a == u + b {
      assert a == (u + a)[|u|..];
      assert b == (u + b)[|u|..];
    }
  }

  /** The storage view with the listing error and the page limit handled: no
      cleanup when the listing failed, and the whole folder otherwise. */
  function ViewCorrected(userId: string, listing: Listing): Option<set<string>> {
    match listing
    case ListFailed => None
    case Listed(names) => Some(FolderPaths(userId, names))
  }

  /** With the corrected view of the whole folder, cleanup only touches what is
      really unpaired: a deleted row's file is not in the folder, a removed file
      has no row, and a failed listing deletes nothing. */
  lemma CorrectedCleanupIsSound(userId: string, names: seq<string>, rows: seq<Row>, signed: map<string, string>)
    ensures var r := LoadVideos(ViewCorrected(userId, WholeFolder(names)), RowsFound(rows), signed);
            && (forall id :: id in r.cleanup.deleteRows ==>
                  exists i :: 0 <= i < |rows| && rows[i].id == id
                              && rows[i].storagePath !in FolderPaths(userId, names))
            && (forall p :: p in r.cleanup.removeFiles ==> p in FolderPaths(userId, names) && p !in RowPaths(rows))
    ensures var r := LoadVideos(ViewCorrected(userId, ListFailed), RowsFound(rows), signed);
            r.cleanup == Cleanup({}, {}, false) && r.shown == Some(rows)
  {
    ReconcileDeletesOnlyUnlisted(FolderPaths(userId, names), rows);
  }
}

=== FILE: wrappers.dfy ===
/** Optional values, used wherever the original code works with a value that may be
    null/undefined (JavaScript) or None (Python). */
module Wrappers {

  datatype Option<+T> = None | Some(value: T) {

    /** The wrapped value, or `default` when there is none. */
    function GetOr(default: T): T {
      match this
      case Some(v) => v
      case None => default
    }
  }
}
